=== FILE: README.md ===
# sonz.AI game backend core, modelled in Dafny

This project models the Go core of the sonz.AI game backend, which is built on the
Nakama game server. The model covers these parts:

- **Domain aggregates.** Tournaments and their participants, battles, bot commands,
  player accounts, analytics sessions and events, groups, and leaderboard
  submissions and seasons. The typed identifiers share one validation rule.
- **Application services.** Tournaments, analytics, battles, groups, leaderboard,
  authentication and bot commands.
- **In-memory repositories.** The tournament, participant and session repositories.
- **The Segment dispatcher.** It turns events into Segment's batch format.
- **The legacy `se` tracker package.**
- **The Nakama runtime module.** Its two request hooks and the authoritative battle
  match handler.

How the model is built:

- Aggregates whose fields the Go code updates in place are classes. Their `New...`
  constructors are static methods that return a `Result`. Each constructor is paired
  with a `Check...` function that gives its validation chain in Go's order,
  with Go's error values.
- Services are classes. Their repositories are maps of object references, so a stored
  aggregate mutated by a caller is mutated in the store, as with Go pointers.
- Each service records every collaborator call in a ghost `trace`. This lets the
  contracts say which calls happen on each success and failure path.
- The answers of collaborators are parameters of the operation: Nakama, a repository
  that fails, the dispatcher, the HTTP status. So are readings of the clock (`now`,
  and `wallNow` where the domain code reads `time.Now`). Go's runtime version,
  operating system and architecture are parameters too.
- Times are integer nanoseconds since Go's zero time, so `IsZero` means `t == 0`.

## Model

| member | source | states |
|---|---|---|
| Clock.UnixSeconds | src/app/tournaments/service.go:117 | `Unix()` is the whole number of seconds since the Unix epoch, rounded down: the instant lies inside that second |
| Clock.WholeSeconds | src/app/tournaments/service.go:118 | `int(d.Seconds())` truncates toward zero on both signs, and the duration lies within one second of the result |
| Ids.TrimSpace | src/domain/shared/types.go:20 | the trimmed string is empty exactly when every character is Go white space; otherwise it starts and ends with a non-space character |
| Ids.Validate | src/domain/shared/types.go:19-59 | every identifier type fails exactly when the identifier is white space only (empty included), with that type's own message |
| Ids.ValidateOnPaddedIds | src/domain/shared/types.go:19-24 | a blank identifier is refused, and a padded non-blank one is accepted as it is, without being normalised |
| TournamentDomain.CheckNewTournament | src/domain/tournament/tournament.go:72-92 | the constructor's checks fail exactly when the id is blank, the title is empty, a count is negative, the start is zero or the duration is negative; a blank id is reported first |
| TournamentDomain.Tournament.NewTournament | src/domain/tournament/tournament.go:59-112 | the result is an error exactly when a check fails; otherwise a fresh, active tournament with no end time, created and updated at `now`, which passes `Validate` |
| TournamentDomain.Tournament.End | src/domain/tournament/tournament.go:115-126 | the call succeeds exactly when the tournament is not already ended and the end is not before the start; a refusal changes nothing; the lifecycle invariant is kept |
| TournamentDomain.Tournament.Reset | src/domain/tournament/tournament.go:129-136 | reset is allowed only from active or ended and keeps the end time; the invariant is kept |
| TournamentDomain.Tournament.CalculateEndTime | src/domain/tournament/tournament.go:144-152 | the result is start plus duration when the duration is positive, else the recorded end, else zero; for a valid tournament it is never before the start unless zero |
| TournamentDomain.Tournament.Validate | src/domain/tournament/tournament.go:155-166 | validation passes exactly when the id is not blank, the title is non-empty and the start time is set |
| ParticipantDomain.CheckNewParticipant | src/domain/tournament/participant.go:21-29 | the checks fail exactly on a blank tournament id, a blank player id or a zero join time, reported in that order |
| ParticipantDomain.Participant.NewParticipant | src/domain/tournament/participant.go:20-37 | the result is an error exactly when a check fails; otherwise a fresh participant with zero attempts |
| ParticipantDomain.Participant.AddAttempts | src/domain/tournament/participant.go:40-47 | a non-positive count is refused and changes nothing; otherwise the counter grows by exactly `count`; the counter never decreases |
| ParticipantDomain.Participant.ResetAttempts | src/domain/tournament/participant.go:50-53 | the counter returns to zero and the update time is `now` |
| BattleDomain.FindSlot | src/domain/battle/battle.go:65-72 | returns the first slot holding the player, or none exactly when the player has no slot |
| BattleDomain.CheckNewBattle | src/domain/battle/battle.go:35-43 | the checks fail exactly when the battle id, the leader or the key is blank, reported in that order |
| BattleDomain.Battle.NewBattle | src/domain/battle/battle.go:34-52 | the result is an error exactly when a check fails; otherwise a fresh battle whose only slot is the ready leader |
| BattleDomain.Battle.AddPlayer | src/domain/battle/battle.go:54-63 | a player already present is refused with ErrPlayerAlreadyJoined and nothing changes; otherwise one not-ready slot is appended; distinct players and the leader's first slot are kept |
| BattleDomain.Battle.MarkReady | src/domain/battle/battle.go:65-75 | an absent player is refused with ErrPlayerNotFound and nothing changes; otherwise only the ready flag of that player's first slot changes |
| BattleDomain.Battle.UpdateSnapshot | src/domain/battle/battle.go:77-83 | the snapshot is stored, stamped with the wall clock when its own time is zero, and that time becomes the battle's update time; the slots are untouched |
| BotDomain.CheckNewCommand | src/domain/bot/command.go:32-37 | the checks fail exactly when the command id or the key is blank; the channel is never checked |
| BotDomain.Command.NewCommand | src/domain/bot/command.go:31-46 | the result is an error exactly when a check fails; otherwise a fresh pending command with no retries, no error and zero attempt and completion times |
| BotDomain.Command.MarkAttempt | src/domain/bot/command.go:48-59 | an error marks the command failed, adds one retry and keeps the error text; success completes it at `now` and clears the text; retries never decrease |
| PlayerDomain.Seen | src/domain/player/account.go:62-64 | a device's zero last-seen time becomes the wall clock, and everything else is kept |
| PlayerDomain.Issued | src/domain/player/account.go:73-75 | a session's zero issue time becomes the wall clock, and everything else is kept |
| PlayerDomain.CheckNewPlayerAccount | src/domain/player/account.go:37-42 | the checks fail exactly on a blank id, then on an empty email (ErrEmailRequired) |
| PlayerDomain.PlayerAccount.NewPlayerAccount | src/domain/player/account.go:36-52 | the result is an error exactly when a check fails; otherwise a fresh account with no devices or sessions that is not suspended |
| PlayerDomain.PlayerAccount.RegisterDevice | src/domain/player/account.go:54-67 | a suspended account is refused first, then an empty device id; otherwise only that device's entry is written; sessions and suspension are untouched |
| PlayerDomain.PlayerAccount.RecordSession | src/domain/player/account.go:69-78 | a session without an id is ignored; any other is appended last, even on a suspended account |
| PlayerDomain.PlayerAccount.Suspend | src/domain/player/account.go:80-84 | the account becomes suspended with the message; devices and sessions are kept |
| PlayerDomain.PlayerAccount.Reinstate | src/domain/player/account.go:86-90 | the suspension and its message are cleared; devices and sessions are kept |
| PlayerDomain.PlayerAccount.CanStartBattle | src/domain/player/account.go:92-100 | a suspended account is refused; otherwise the call fails exactly when the key is blank |
| SessionDomain.CheckNewSession | src/domain/analytics/session.go:30-38 | the checks fail exactly on a blank user, an empty version or a zero start, in that order; the variant is unchecked |
| SessionDomain.Session.NewSession | src/domain/analytics/session.go:29-46 | the result is an error exactly when a check fails; otherwise a fresh active session with no end |
| SessionDomain.Session.End | src/domain/analytics/session.go:49-59 | the call succeeds exactly when the session is not ended and the end is not before the start; a refusal changes nothing; the invariant is kept |
| SessionDomain.Session.Duration | src/domain/analytics/session.go:67-72 | the duration runs to the end time, or to the wall clock while active; an ended valid session is never negative |
| EventDomain.CheckNewIdentifyEvent | src/domain/analytics/event.go:62-68 | the checks fail exactly on a blank user or a zero timestamp |
| EventDomain.CheckNewTrackEvent | src/domain/analytics/event.go:78-87 | the checks fail exactly on a blank user, an empty name or a zero timestamp, in that order |
| EventDomain.ValidateFields | src/domain/analytics/event.go:116-130 | validation needs a type, a valid user, a name for track events and a non-zero timestamp, each with its own message |
| EventDomain.ConstructedEventsValidate | src/domain/analytics/event.go:62-130 | whatever either constructor accepts passes `Validate`; for track events the two rule sets agree exactly |
| EventDomain.Event.NewIdentifyEvent | src/domain/analytics/event.go:62-75 | the result is an error exactly when a check fails; otherwise a fresh identify event without a name or details, which passes `Validate` |
| EventDomain.Event.NewTrackEvent | src/domain/analytics/event.go:78-95 | the result is an error exactly when a check fails; otherwise a fresh track event, which passes `Validate` |
| EventDomain.Event.WithAppInfo | src/domain/analytics/event.go:98-104 | replaces only the application details and returns the same event |
| EventDomain.Event.WithOSInfo | src/domain/analytics/event.go:107-113 | replaces only the OS details and returns the same event |
| EventDomain.Event.Validate | src/domain/analytics/event.go:116-130 | validation passes exactly under the field rules; attached details never matter |
| GroupDomain.CheckNewGroup | src/domain/group/group.go:34-42 | the checks fail exactly on a blank group id, a blank owner or an empty name (ErrNameRequired), in that order |
| GroupDomain.Group.NewGroup | src/domain/group/group.go:33-52 | the result is an error exactly when a check fails; otherwise a fresh group whose only member is the owner, with the owner role |
| GroupDomain.Group.AssignRole | src/domain/group/group.go:54-64 | a non-member is refused with ErrMemberNotFound and nothing changes; otherwise only that member's role changes and the member set stays the same |
| LeaderboardDomain.ScoreSubmission.Validate | src/domain/leaderboard/leaderboard.go:30-41 | validation fails exactly when the player, the season or the key is blank, and the first blank one decides the error |
| LeaderboardDomain.Season.Activate | src/domain/leaderboard/leaderboard.go:26-28 | the season is active exactly when `now` lies strictly between its start and its end |
| TournamentService.ProviderParams | src/app/tournaments/service.go:108-125 | Nakama's parameters copy the command, the start and end become Unix seconds (end 0 when absent), and the duration becomes whole seconds |
| TournamentService.CheckAddAttempt | src/app/tournaments/service.go:167-175 | the checks fail exactly on a blank tournament id, a blank player id or a non-positive count (ErrInvalidAttemptCount), in that order |
| TournamentService.NormalizePage | src/app/tournaments/service.go:232-237 | a non-positive limit becomes 10 and a negative offset becomes 0; other values are kept |
| TournamentService.LookupParticipant | src/app/tournaments/service.go:180 | the repository's answer is its error, the stored participant, or ErrParticipantNotFound |
| TournamentService.Service.CreateTournament | src/app/tournaments/service.go:78-132 | a refused command makes no call; a failed save makes no Nakama call; after a save the tournament stays stored even if Nakama fails; Nakama receives `ProviderParams` |
| TournamentService.Service.DeleteTournament | src/app/tournaments/service.go:140-156 | a blank id makes no call; Nakama deletes first, and the repository deletes only after Nakama succeeds |
| TournamentService.Service.GetOrCreateParticipant | src/app/tournaments/service.go:180-190 | a participant is created exactly when the repository reports ErrParticipantNotFound; any other error is returned; a participant returned is either new or the one stored under the pair |
| TournamentService.Service.AddAttempt | src/app/tournaments/service.go:166-208 | the checks come before any call; an existing participant's counter grows by exactly `count`; a zero `now` on the creation path fails with "joined time is required"; a participant created and saved is joined at `now`; a save precedes the Nakama call, which happens only after a successful save; only that participant may change, and a refused command or a failed read leaves it unchanged |
| TournamentService.Service.RecordAttempts | src/app/tournaments/service.go:177-207 | the part of `AddAttempt` after the checks: get-or-create, add, save, then Nakama, stopping at the first failure, with a read error other than ErrParticipantNotFound returned as it is and a zero `now` on creation failing with "joined time is required"; a participant created and saved is joined at `now`; only the pair's participant may change, and not at all when the read fails |
| TournamentService.Service.ApplyAttempts | src/app/tournaments/service.go:193-207 | the counter grows in place by `count` even when the save fails; Nakama is told only after a successful save |
| TournamentService.Service.GetTournament | src/app/tournaments/service.go:216-222 | a blank id fails with no call; otherwise the repository's answer is returned |
| TournamentService.Service.ListTournaments | src/app/tournaments/service.go:231-240 | the repository is asked for the normalised page, and its listing is returned unchanged |
| TournamentMemory.MemoryRepository.Save | src/infra/tournament/memory_repository.go:25-31 | stores the tournament under its id, replacing only that entry |
| TournamentMemory.MemoryRepository.Get | src/infra/tournament/memory_repository.go:34-44 | returns the stored tournament, or ErrTournamentNotFound exactly when it is absent |
| TournamentMemory.MemoryRepository.Delete | src/infra/tournament/memory_repository.go:47-53 | removes only that id; deleting an absent id is a no-op |
| TournamentMemory.MemoryRepository.List | src/infra/tournament/memory_repository.go:56-77 | returns the window of `limit` entries from `offset` in one iteration order of the map, cut at the end, and empty past the end |
| TournamentMemory.MakeKey | src/infra/tournament/memory_repository.go:92-94 | the key is the tournament id, a colon, then the player id |
| TournamentMemory.MakeKeyInjective | src/infra/tournament/memory_repository.go:92-94 | distinct pairs get distinct keys when no tournament id contains a colon |
| TournamentMemory.MakeKeyCollision | src/infra/tournament/memory_repository.go:92-94 | tournament "a:b" with player "c" and tournament "a" with player "b:c" share a key |
| TournamentMemory.MemoryParticipantRepository.Save | src/infra/tournament/memory_repository.go:97-104 | stores the participant under its pair's key, replacing only that entry |
| TournamentMemory.MemoryParticipantRepository.Get | src/infra/tournament/memory_repository.go:107-118 | returns the participant under the pair's key, or ErrParticipantNotFound exactly when it is absent |
| TournamentMemory.MemoryParticipantRepository.ListByTournament | src/infra/tournament/memory_repository.go:121-133 | returns exactly the tournament's stored participants, each once |
| TournamentMemory.MemoryParticipantRepository.Delete | src/infra/tournament/memory_repository.go:136-143 | removes only the pair's key |
| SessionMemory.MemorySessionRepository.Save | src/infra/analytics/memory_session_repository.go:25-31 | stores the session under its user, replacing only that user's entry |
| SessionMemory.MemorySessionRepository.Get | src/infra/analytics/memory_session_repository.go:34-44 | returns the user's session, or ErrSessionNotFound exactly when it is absent |
| SessionMemory.MemorySessionRepository.Delete | src/infra/analytics/memory_session_repository.go:47-53 | removes only that user; an absent user is a no-op |
| AnalyticsService.View | src/infra/analytics/segment_dispatcher.go:65-107 | a snapshot of the event fields that a dispatcher reads |
| AnalyticsService.DefaultContext | src/app/analytics/service.go:164-172 | the default context is direct, from library "go" at the runtime's version |
| AnalyticsService.StartEvents | src/app/analytics/service.go:58-71 | the start batch is an identify event, then a "start" track event with the variant and version as app details and the OS and architecture as OS details, both stamped `now` |
| AnalyticsService.Details | src/app/analytics/service.go:149-154 | details are attached exactly when one of their two strings is non-empty |
| AnalyticsService.LookupSession | src/app/analytics/service.go:91 | the repository's answer is its error, the user's session, or ErrSessionNotFound |
| AnalyticsService.Service.StartSession | src/app/analytics/service.go:38-77 | an invalid user or empty version (ErrInvalidEvent) makes no call; the session is saved before dispatch; a dispatch failure becomes ErrDispatchFailed and the session stays saved |
| AnalyticsService.Service.DispatchStart | src/app/analytics/service.go:57-76 | exactly the `StartEvents` batch is dispatched, once |
| AnalyticsService.Service.EndSession | src/app/analytics/service.go:85-123 | a repository error is returned with nothing saved; an `End` refusal is returned as `End` gives it ("session already ended", or "end time cannot be before start time"), with nothing saved; otherwise the session ends in place at `now` and `FinishSession` follows; only the user's session may change, and a blank user or a failed read leaves it unchanged |
| AnalyticsService.Service.FinishSession | src/app/analytics/service.go:101-122 | save, then one "end" event; a dispatch failure keeps the session; the delete runs only after a successful dispatch, and its answer is ignored |
| AnalyticsService.Service.TrackEvent | src/app/analytics/service.go:136-162 | an invalid user, name or timestamp makes no call; one event is dispatched with details only where given; a dispatch failure becomes ErrDispatchFailed |
| BattleService.Payload | src/app/battles/service.go:67-71 | Nakama receives the command's leader, metadata and preset |
| BattleService.Service.StartBattle | src/app/battles/service.go:60-85 | an invalid leader or key makes no call; a Nakama failure saves nothing; on success a battle carrying Nakama's id is stored under it, led and readied by the leader, with an empty snapshot and created and updated at `now`, and Nakama's ids are returned |
| BattleService.Service.Launch | src/app/battles/service.go:67-85 | the match is created first; only its success is registered |
| BattleService.Service.Register | src/app/battles/service.go:76-84 | a battle id that Nakama returns and the aggregate refuses fails after the match exists, saving nothing; a failed save is returned; a stored battle carries its id and is created at `now` |
| BattleService.Service.Store | src/app/battles/service.go:81-83 | the battle is stored under its id unless the save fails |
| GroupService.Payload | src/app/groups/service.go:71-78 | Nakama receives the input's fields, unchecked |
| GroupService.Service.CreateGroup | src/app/groups/service.go:66-92 | an invalid creator makes no call; the remote group is created before any check of its name or id; on success the group is stored under its own id, created and updated at `now`, with the description and the creator as its only owner member |
| GroupService.Service.Register | src/app/groups/service.go:83-91 | an empty name (ErrNameRequired) or a blank id is refused after the remote group exists; the description is copied before the save; a stored group carries its id and is created at `now` |
| GroupService.Service.Store | src/app/groups/service.go:88-90 | the group is stored under its id unless the save fails |
| LeaderboardService.Submission | src/app/leaderboard/service.go:40-46 | the submission carries the command's fields, stamped `now` |
| LeaderboardService.Service.Submit | src/app/leaderboard/service.go:39-54 | a submission that fails validation makes no call; otherwise it is submitted, and the result is the repository's error or an acknowledgement |
| LeaderboardService.ScoreIsUnconstrained | src/domain/leaderboard/leaderboard.go:30-41 | the score never affects validation |
| AuthService.Var | src/app/auth/service.go:60 | a map lookup gives the stored value, or "" when the key is absent |
| AuthService.AfterSignIn | src/app/auth/service.go:65-66 | the device is registered unless the account is suspended or the id is empty, and the session is appended unless its id is empty; the suspension and its message are unchanged; `updatedAt` becomes the wall clock exactly when something was added, otherwise the activity is unchanged |
| AuthService.Service.AuthenticateDevice | src/app/auth/service.go:49-71 | a Nakama failure is returned with nothing else done; otherwise `SignedIn` holds for the device and session, and Nakama's result is returned on success; only the signed-in account may change, and not at all when its read fails |
| AuthService.Service.AuthenticateEmail | src/app/auth/service.go:73-94 | as for the device flow, with the email and Nakama's username, and no device registered |
| AuthService.Service.SignIn | src/app/auth/service.go:55-70 | a read error other than ErrNotFound changes nothing, neither the map nor the stored account; only the account under `id` may change; a stored account is stamped even if the save fails; a new account is stored only on a successful save |
| AuthService.Service.SignInStored | src/app/auth/service.go:55-69 | a stored account is read, stamped (its activity becomes `AfterSignIn` of the previous one) and saved back; the account map is unchanged and the stamp stays when the save fails |
| AuthService.Service.SignInNew | src/app/auth/service.go:55-69 | a new account is refused exactly as `NewPlayerAccount` refuses it, before any save; otherwise it is stored, with the given email, name and creation time and a stamped empty activity, only when the save succeeds |
| AuthService.Service.Stamp | src/app/auth/service.go:65-66 | the account's activity (devices, sessions, suspension and its message, `updatedAt`) becomes `AfterSignIn` of its previous activity; identity, email, name and creation time are kept |
| AuthService.Service.Store | src/app/auth/service.go:67-69 | the account is stored under its id unless the save fails |
| BotService.Reservation | src/app/bot/service.go:57 | the reservation's answer is its error, the saved command, or ErrNotFound |
| BotService.Service.Handle | src/app/bot/service.go:55-84 | a completed duplicate is acknowledged, any other duplicate gets ErrDuplicate, a non-ErrNotFound error is returned; then the new command is admitted and stored under its key with its id, key, channel, payload and creation time `now`, pending with no retries, no error and zero attempt and completion times unless the enqueue failed; success is always `accepted` |
| BotService.Service.Admit | src/app/bot/service.go:66-83 | a rejected id or key makes no further call; otherwise `Admitted` holds: the stored command carries the input's id, key, channel and payload, created at `now`, and is pending with no error and zero attempt time, or failed once with the enqueue error's text attempted at `now` |
| BotService.Service.Submit | src/app/bot/service.go:70-83 | the command is saved pending before it is enqueued; a failed enqueue marks it failed and saves it again; the notifier is called only for a non-empty player; a command acknowledged is stored pending with no retries, no error and zero attempt time |
| SegmentDispatcher.NewSegmentDispatcher | src/infra/analytics/segment_dispatcher.go:21-32 | an empty base URL selects Segment's batch endpoint |
| SegmentDispatcher.Translated | src/infra/analytics/segment_dispatcher.go:71-106 | the batch has one entry per input event |
| SegmentDispatcher.FirstInvalidPasses | src/infra/analytics/segment_dispatcher.go:71-74 | the validation loop passes exactly when every event is valid |
| SegmentDispatcher.FirstInvalidPassAt | src/infra/analytics/segment_dispatcher.go:71-74 | when the validation loop passes, each event is valid |
| SegmentDispatcher.FirstInvalidIsFirst | src/infra/analytics/segment_dispatcher.go:71-74 | a reported failure is the error of an event before which every event is valid |
| SegmentDispatcher.FirstInvalidOfPrefix | src/infra/analytics/segment_dispatcher.go:71-74 | a prefix that already fails decides the whole list's failure |
| SegmentDispatcher.TranslatedInOrder | src/infra/analytics/segment_dispatcher.go:76-106 | each posted event translates the input at the same position: the name only for track events, details exactly when present |
| SegmentDispatcher.Dispatch | src/infra/analytics/segment_dispatcher.go:65-134 | an empty list posts nothing and succeeds; the first invalid event aborts before posting; otherwise the translated batch is posted; a failure to build or send the request is returned as it is, and a status of 400 or more is ErrDispatchFailed |
| SegmentDispatcher.TranslateAll | src/infra/analytics/segment_dispatcher.go:71-107 | the loop returns the first validation failure, or the full translated batch |
| LegacyTracker.DefaultContext | se/se.go:230-238 | the default context is direct, from library "go" at the runtime's version |
| LegacyTracker.NewTracker | se/se.go:93-104 | for each setting, the last option that supplies a value wins; empty URLs and nil clients or factories are ignored |
| LegacyTracker.IgnoredOptionsKeepDefaults | se/se.go:107-131 | options that are only empty or nil keep every default |
| LegacyTracker.LaterBaseURLWins | se/se.go:116-122 | the last non-empty `WithBaseURL` decides the URL |
| LegacyTracker.NewIdentifyEvent | se/se.go:182-188 | an identify event with no name and no details; nothing is validated |
| LegacyTracker.NewTrackEvent | se/se.go:191-222 | a track event whose details come from the last option of each kind |
| LegacyTracker.StartSession | se/se.go:134-143 | posts exactly one batch: an identify event and a "start" event with app and OS details; the result is the transport's |
| LegacyTracker.EndSession | se/se.go:146-151 | posts exactly one batch holding one "end" event without details |
| LegacyTracker.Start | se/se.go:241-244 | a start through a default tracker posts exactly the identify event and the "start" event with the variant and version as app details and the OS and architecture as OS details, in the default context |
| LegacyTracker.End | se/se.go:247-250 | an end through a default tracker uses the default context |
| SandaiRuntime.BeforeAuthenticateDevice | src/infra/runtime/sandai_module.go:33-38 | a request without an account or with an empty device id is bad input; any other passes through unchanged |
| SandaiRuntime.BeforeWriteLeaderboardRecord | src/infra/runtime/sandai_module.go:45-55 | a request without a record is bad input; empty metadata is replaced by the timestamp; other records pass through unchanged |
| SandaiRuntime.MatchInit | src/infra/runtime/sandai_module.go:64-67 | the state is fresh, at tick 0 with no players; the tick rate is 10 and the label is "sandai" |
| SandaiRuntime.MatchJoinAttempt | src/infra/runtime/sandai_module.go:69-71 | every join is accepted, with no reason, and the state is unchanged |
| SandaiRuntime.JoinedPlayers | src/infra/runtime/sandai_module.go:73-79 | after a join the players are exactly the earlier ones plus the joiners; the last presence per session wins; others are kept |
| SandaiRuntime.MatchJoin | src/infra/runtime/sandai_module.go:73-79 | each joiner is stored under its session id, in order; the tick is unchanged |
| SandaiRuntime.Sessions | src/infra/runtime/sandai_module.go:83-85 | the set of the leavers' session ids |
| SandaiRuntime.MatchLeave | src/infra/runtime/sandai_module.go:81-87 | exactly the leaving sessions are removed |
| SandaiRuntime.MatchLoop | src/infra/runtime/sandai_module.go:89-101 | records the tick, broadcasts every message in order, and ends exactly when nobody is present past tick 30 |
| SandaiRuntime.EndsAfterEveryoneLeaves | src/infra/runtime/sandai_module.go:73-99 | once every session present after the joins has left, the match ends exactly past tick 30; while a joiner that has not left is present, it never ends |

## Left out

- HTTP and JSON. Serialising batches, building requests and posting them are not modelled, in the Segment dispatcher and in the tracker's `dispatch`. The dispatcher returns the batch it would post, and the HTTP status or the transport's outcome is a parameter. In the dispatcher that parameter is either the status or the error of building or sending the request, which is returned as it is rather than as ErrDispatchFailed. So are the HTTP client and its five-second timeout, and the dispatcher's `WithHTTPClient`.
- Mutexes. The memory repositories' read/write locks are not modelled; each operation is one sequential step.
- BotService.Service.Handle: `ReserveCommand` is modelled as a lookup among saved commands. The reservation state and its atomicity belong to a repository implementation that is not part of this model.
- Clock.WholeSeconds: `Duration.Seconds()` goes through a float64. The model truncates the exact quotient and ignores float rounding for durations beyond 2^53 nanoseconds.
- Integer widths. Go's `int` and `int64` overflow, such as a start plus a duration past the int64 range, is not modelled; integers are unbounded.
- Strings are sequences of characters. Invalid UTF-8, which `strings.TrimSpace` would treat as U+FFFD, is not represented.
- Errors. `errors.Is` is modelled as equality with the sentinel, because the core never wraps its errors.
- TournamentID. Its definition is not part of this model. It is taken to follow the same blank rule as the other identifiers, with the message "tournament id is required".
- `runtime.GOOS`, `runtime.GOARCH` and `runtime.Version()` are parameters. So is the serialised validation time of `beforeWriteLeaderboardRecord`.
- Broadcasting and logging in the match handler are not performed. `MatchLoop` returns the broadcast data instead.
- A nil command returned by the reservation with no error is not represented.
- Wall clock. The `time.Now()` reads inside the domain code (account stamps, `Session.Duration`, `UpdateSnapshot`) are the parameter `wallNow`. The several reads within one call are taken as one instant: `RegisterDevice` and `RecordSession` read the clock once for the stamp and once for `updatedAt`, and the model gives both the same `wallNow`, so a stamped `lastSeen` or `issuedAt` equals the account's new `updatedAt`.
- Open string types such as tournament states and command states are datatypes. Go's zero value "" of those types is therefore not representable.
- Metadata maps with untyped values (`map[string]interface{}`) are modelled as maps of strings, and leaderboard record metadata as a string.
- Context factories are represented by the constant context they return.
- TournamentService.Service.ListTournaments: the repository's listing is a parameter of the call. `TournamentMemory.MemoryRepository.List` models the in-memory listing separately.
- Map iteration order. The memory repositories' listings return a ghost order, which is any order that lists every key once.
- `MatchTerminate`, `MatchSignal`, `afterAuthenticateDevice` and `InitModule` are not modelled. They only log, return their input or register handlers with Nakama.
- The `NewService` constructors with a default clock read `time.Now`; here each operation takes `now`. The `WithClock`-style overrides are not needed.

=== FILE: account.dfy ===
/** The PlayerAccount aggregate of src/domain/player/account.go. Its mutators read the
    wall clock; here that reading is the parameter `wallNow`. */
module PlayerDomain {
  import opened Wrappers
  import opened Clock
  import opened Errors
  import opened Ids

  /** Device claims trusted during authentication. */
  datatype DeviceFingerprint = DeviceFingerprint(id: string, platform: string, lastSeen: Time)

  /** One issued session. */
  datatype SessionMetadata = SessionMetadata(sessionID: string, ipAddress: string, userAgent: string, issuedAt: Time)

  /** The device as registered: a zero last-seen time is replaced by the wall clock. */
  function Seen(device: DeviceFingerprint, wallNow: Time): (d: DeviceFingerprint)
    ensures d.id == device.id && d.platform == device.platform
    ensures !IsZero(device.lastSeen) ==> d == device
    ensures IsZero(device.lastSeen) ==> d.lastSeen == wallNow
  {
    if IsZero(device.lastSeen) then device.(lastSeen := wallNow) else device
  }

  /** The session as recorded: a zero issue time is replaced by the wall clock. */
  function Issued(session: SessionMetadata, wallNow: Time): (s: SessionMetadata)
    ensures s.sessionID == session.sessionID && s.ipAddress == session.ipAddress && s.userAgent == session.userAgent
    ensures !IsZero(session.issuedAt) ==> s == session
    ensures IsZero(session.issuedAt) ==> s.issuedAt == wallNow
  {
    if IsZero(session.issuedAt) then session.(issuedAt := wallNow) else session
  }

  /** The part of an account its methods change: its devices, its sessions, its
      suspension with the message, and the time of the last change. */
  datatype Activity = Activity(devices: map<string, DeviceFingerprint>, sessions: seq<SessionMetadata>,
                               suspended: bool, suspensionMsg: string, updatedAt: Time)

  /** The checks of `NewPlayerAccount`: it fails exactly when the identifier is blank or
      the email is empty, the latter with `ErrEmailRequired`. */
  function CheckNewPlayerAccount(id: PlayerID, email: string): (r: Outcome<Error>)
    ensures r.Pass? <==> !IsBlank(id) && email != ""
    ensures IsBlank(id) ==> r == Fail(Msg(RequiredMessage(PlayerId)))
    ensures !IsBlank(id) && email == "" ==> r == Fail(EmailRequired)
  {
    if Validate(PlayerId, id).Fail? then Validate(PlayerId, id)
    else if email == "" then Fail(EmailRequired)
    else Pass
  }

  /** The account behind authentication and session policy. */
  class PlayerAccount {
    const id: PlayerID
    const email: string
    const displayName: string
    const createdAt: Time
    var devices: map<string, DeviceFingerprint>
    var sessions: seq<SessionMetadata>
    var updatedAt: Time
    var suspended: bool
    var suspensionMsg: string

    /** The struct literal of `NewPlayerAccount`. */
    constructor (id: PlayerID, email: string, displayName: string, now: Time)
      ensures this.id == id && this.email == email && this.displayName == displayName
      ensures devices == map[] && sessions == [] && !suspended && suspensionMsg == ""
      ensures createdAt == now && updatedAt == now
    {
      this.id, this.email, this.displayName := id, email, displayName;
      devices, sessions := map[], [];
      suspended, suspensionMsg := false, "";
      createdAt, updatedAt := now, now;
    }

    /** The account's mutable fields. */
    ghost function CurrentActivity(): Activity
      reads this
    {
      Activity(devices, sessions, suspended, suspensionMsg, updatedAt)
    }

    /** `NewPlayerAccount`: an error exactly when a check fails; otherwise a fresh account
        with no devices, no sessions, not suspended, created and updated at `now`. */
    static method NewPlayerAccount(id: PlayerID, email: string, displayName: string, now: Time)
      returns (r: Result<PlayerAccount, Error>)
      ensures var check := CheckNewPlayerAccount(id, email);
              (r.Failure? <==> check.Fail?) && (r.Failure? ==> r.error == check.error)
      ensures r.Success? ==> fresh(r.value) && r.value.id == id && r.value.email == email
                             && r.value.displayName == displayName && r.value.devices == map[]
                             && r.value.sessions == [] && !r.value.suspended && r.value.suspensionMsg == ""
                             && r.value.createdAt == now && r.value.updatedAt == now
    {
      var check := CheckNewPlayerAccount(id, email);
      if check.Fail? {
        return Failure(check.error);
      }
      var a := new PlayerAccount(id, email, displayName, now);
      return Success(a);
    }

    /** `RegisterDevice`: a suspended account is refused first, then an empty device
        identifier; a refusal changes nothing. Otherwise only the entry under the device's
        identifier is written (inserted or overwritten). */
    method RegisterDevice(device: DeviceFingerprint, wallNow: Time) returns (r: Outcome<Error>)
      modifies this
      ensures r.Pass? <==> !old(suspended) && device.id != ""
      ensures old(suspended) ==> r == Fail(AccountSuspended)
      ensures !old(suspended) && device.id == "" ==> r == Fail(DeviceInvalid)
      ensures r.Fail? ==> unchanged(this)
      ensures r.Pass? ==> devices == old(devices)[device.id := Seen(device, wallNow)] && updatedAt == wallNow
      ensures sessions == old(sessions) && suspended == old(suspended) && suspensionMsg == old(suspensionMsg)
    {
      if suspended {
        return Fail(AccountSuspended);
      }
      if device.id == "" {
        return Fail(DeviceInvalid);
      }
      devices := devices[device.id := Seen(device, wallNow)];
      updatedAt := wallNow;
      return Pass;
    }

    /** `RecordSession`: a session without an identifier is ignored; any other is appended
        as the last entry, whether or not the account is suspended. */
    method RecordSession(session: SessionMetadata, wallNow: Time)
      modifies this
      ensures session.sessionID == "" ==> unchanged(this)
      ensures session.sessionID != "" ==> sessions == old(sessions) + [Issued(session, wallNow)] && updatedAt == wallNow
      ensures devices == old(devices) && suspended == old(suspended) && suspensionMsg == old(suspensionMsg)
    {
      if session.sessionID == "" {
        return;
      }
      sessions := sessions + [Issued(session, wallNow)];
      updatedAt := wallNow;
    }

    /** `Suspend`. */
    method Suspend(message: string, wallNow: Time)
      modifies this
      ensures suspended && suspensionMsg == message && updatedAt == wallNow
      ensures devices == old(devices) && sessions == old(sessions)
    {
      suspended := true;
      suspensionMsg := message;
      updatedAt := wallNow;
    }

    /** `Reinstate`. */
    method Reinstate(wallNow: Time)
      modifies this
      ensures !suspended && suspensionMsg == "" && updatedAt == wallNow
      ensures devices == old(devices) && sessions == old(sessions)
    {
      suspended := false;
      suspensionMsg := "";
      updatedAt := wallNow;
    }

    /** `CanStartBattle`: a suspended account is refused; otherwise the result fails
        exactly when the idempotency key is blank. */
    function CanStartBattle(key: IdempotencyKey): (r: Outcome<Error>)
      reads this
      ensures suspended ==> r == Fail(AccountSuspended)
      ensures !suspended ==> (r.Fail? <==> forall i :: 0 <= i < |key| ==> IsSpace(key[i]))
    {
      if suspended then Fail(AccountSuspended)
      else Validate(IdempotencyKeyId, key)
    }
  }
}

=== FILE: analytics_service.dfy ===
/** The analytics service of src/app/analytics/service.go.

    The session repository is abstracted as a map from user to session held by the
    service; repository and dispatcher failures are outcome parameters, `now` is the
    service clock's reading, and the event context and the runtime's OS and architecture
    names are fixed when the service is built. Dispatched batches are recorded in the
    ghost `trace` as value snapshots of the events. */
module AnalyticsService {
  import opened Wrappers
  import opened Clock
  import opened Errors
  import opened Ids
  import opened SessionDomain
  import opened EventDomain

  /** The fields of an event at the moment it is dispatched. */
  datatype EventView = EventView(eventType: EventType, userID: PlayerID, name: EventName, context: Context,
                                 app: Option<AppInfo>, os: Option<OSInfo>, timestamp: Time)

  /** A call the service makes on one of its collaborators. */
  datatype Call =
    | SessionGet(user: PlayerID)
    | SessionSave(user: PlayerID)
    | SessionDelete(user: PlayerID)
    | Dispatch(events: seq<EventView>)

  /** A snapshot of `e`. */
  function View(e: Event): (v: EventView)
    reads e
    ensures v.eventType == e.eventType && v.name == e.name && v.app == e.app && v.os == e.os
  {
    EventView(e.eventType, e.userID, e.name, e.context, e.app, e.os, e.timestamp)
  }

  /** `defaultContextFactory`: a direct event from the "go" library at the runtime's version. */
  function DefaultContext(goVersion: string): (c: Context)
    ensures c.direct && c.library.name == "go" && c.library.version == goVersion
  {
    Context(true, LibraryInfo("go", goVersion))
  }

  /** The batch `StartSession` dispatches: an identify event, then a "start" track event
      carrying the variant and version as application details and the runtime's OS and
      architecture; both stamped `now`. */
  function StartEvents(user: PlayerID, version: string, variant: string, ctx: Context, now: Time,
                       goos: string, goarch: string): (batch: seq<EventView>)
    ensures |batch| == 2
    ensures batch[0].eventType == EventTypeIdentify && batch[0].name == "" && batch[0].app.None? && batch[0].os.None?
    ensures batch[1].eventType == EventTypeTrack && batch[1].name == EventNameStart
    ensures batch[1].app == Some(AppInfo(variant, version)) && batch[1].os == Some(OSInfo(goos, goarch))
    ensures forall i :: 0 <= i < 2 ==> batch[i].userID == user && batch[i].timestamp == now && batch[i].context == ctx
  {
    [EventView(EventTypeIdentify, user, "", ctx, None, None, now),
     EventView(EventTypeTrack, user, EventNameStart, ctx, Some(AppInfo(variant, version)), Some(OSInfo(goos, goarch)), now)]
  }

  /** The details `TrackEvent` attaches: only when at least one of the two strings is
      not empty. */
  function Details(name: string, version: string): (d: Option<(string, string)>)
    ensures d.None? <==> name == "" && version == ""
    ensures d.Some? ==> d.value == (name, version)
  {
    if name != "" || version != "" then Some((name, version)) else None
  }

  /** What the session repository's `Get` answers: the reported error when it fails,
      else the user's session, else `ErrSessionNotFound`. */
  function LookupSession(m: map<PlayerID, Session>, user: PlayerID, fault: Option<Error>): (r: Result<Session, Error>)
    ensures fault.Some? ==> r == Failure(fault.value)
    ensures fault.None? ==> (r.Success? <==> user in m)
    ensures r.Success? ==> user in m && r.value == m[user]
    ensures fault.None? && user !in m ==> r == Failure(SessionNotFound)
  {
    if fault.Some? then Failure(fault.value)
    else if user in m then Success(m[user])
    else Failure(SessionNotFound)
  }

  class Service {
    const context: Context
    const goos: string
    const goarch: string
    var sessions: map<PlayerID, Session>
    ghost var trace: seq<Call>

    /** Each session is filed under its own user. */
    ghost predicate Valid()
      reads this
    {
      forall u :: u in sessions ==> sessions[u].userID == u
    }

    /** `NewService` with the default context factory and an empty repository. */
    constructor (goVersion: string, goos: string, goarch: string)
      ensures context == DefaultContext(goVersion) && this.goos == goos && this.goarch == goarch
      ensures sessions == map[] && trace == [] && Valid()
    {
      context := DefaultContext(goVersion);
      this.goos, this.goarch := goos, goarch;
      sessions, trace := map[], [];
    }

    /** `StartSession`: an invalid user, or an empty version (`ErrInvalidEvent`), fails
        with no call. The new session is saved before anything is dispatched; a failed
        save stops there. Then exactly the `StartEvents` batch is dispatched, and a
        dispatcher failure becomes `ErrDispatchFailed` with the session left saved. */
    method StartSession(user: PlayerID, version: string, variant: string, now: Time,
                        saveFault: Option<Error>, dispatchFault: Option<Error>)
      returns (r: Outcome<Error>)
      requires Valid()
      modifies this
      ensures Valid()
      ensures IsBlank(user) ==> r == Fail(Msg(RequiredMessage(PlayerId))) && unchanged(this)
      ensures !IsBlank(user) && version == "" ==> r == Fail(InvalidEvent) && unchanged(this)
      ensures !IsBlank(user) && version != "" && IsZero(now) ==>
                r == Fail(Msg("start time is required")) && unchanged(this)
      ensures !IsBlank(user) && version != "" && !IsZero(now) && saveFault.Some? ==>
                r == Fail(saveFault.value) && trace == old(trace) + [SessionSave(user)] && sessions == old(sessions)
      ensures !IsBlank(user) && version != "" && !IsZero(now) && saveFault.None? ==>
                && user in sessions && sessions == old(sessions)[user := sessions[user]] && fresh(sessions[user])
                && sessions[user].IsActive() && sessions[user].startedAt == now
                && sessions[user].version == version && sessions[user].variant == variant
                && trace == old(trace) + [SessionSave(user)] + [Dispatch(StartEvents(user, version, variant, context, now, goos, goarch))]
                && r == (if dispatchFault.Some? then Fail(DispatchFailed) else Pass)
    {
      var valid := Ids.Validate(PlayerId, user);
      if valid.Fail? {
        return valid;
      }
      if version == "" {
        return Fail(InvalidEvent);
      }
      var created := Session.NewSession(user, version, variant, now);
      if created.Failure? {
        return Fail(created.error);
      }
      var session := created.value;
      trace := trace + [SessionSave(user)];
      if saveFault.Some? {
        return Fail(saveFault.value);
      }
      sessions := sessions[session.userID := session];
      r := DispatchStart(user, version, variant, now, dispatchFault);
    }

    /** The event half of `StartSession`: builds the identify and "start" events, attaches
        the application and OS details to the latter, and dispatches both in one batch. */
    method DispatchStart(user: PlayerID, version: string, variant: string, now: Time, dispatchFault: Option<Error>)
      returns (r: Outcome<Error>)
      requires !IsBlank(user) && !IsZero(now)
      modifies this
      ensures sessions == old(sessions)
      ensures trace == old(trace) + [Dispatch(StartEvents(user, version, variant, context, now, goos, goarch))]
      ensures r == (if dispatchFault.Some? then Fail(DispatchFailed) else Pass)
    {
      var identify := Event.NewIdentifyEvent(user, context, now);
      if identify.Failure? {
        assert false;
      }
      var track := Event.NewTrackEvent(user, EventNameStart, context, now);
      if track.Failure? {
        assert false;
      }
      assert sessions == old(sessions);
      var withApp := track.value.WithAppInfo(variant, version);
      assert sessions == old(sessions);
      var withOS := withApp.WithOSInfo(goos, goarch);
      assert sessions == old(sessions);
      trace := trace + [Dispatch([View(identify.value), View(track.value)])];
      if dispatchFault.Some? {
        return Fail(DispatchFailed);
      }
      return Pass;
    }

    /** `EndSession`: an invalid user fails with no call; a repository error (such as
        `ErrSessionNotFound`) or a refusal of `Session.End` is returned as it is, with
        nothing saved. Otherwise see `FinishSession`. */
    method EndSession(user: PlayerID, now: Time, getFault: Option<Error>, saveFault: Option<Error>,
                      dispatchFault: Option<Error>, deleteFault: Option<Error>)
      returns (r: Outcome<Error>)
      requires Valid()
      modifies this, if user in sessions then {sessions[user]} else {}
      ensures Valid()
      ensures IsBlank(user) ==> r == Fail(Msg(RequiredMessage(PlayerId))) && unchanged(this)
                                && (user in old(sessions) ==> unchanged(old(sessions)[user]))
      ensures var found := LookupSession(old(sessions), user, getFault);
              !IsBlank(user) && found.Failure? ==>
                r == Fail(found.error) && trace == old(trace) + [SessionGet(user)] && sessions == old(sessions)
                && (user in old(sessions) ==> unchanged(old(sessions)[user]))
      ensures var found := LookupSession(old(sessions), user, getFault);
              !IsBlank(user) && found.Success?
              && (old(found.value.state) == SessionStateEnded || Before(now, found.value.startedAt)) ==>
                && r == Fail(if old(found.value.state) == SessionStateEnded then Msg("session already ended")
                             else Msg("end time cannot be before start time"))
                && trace == old(trace) + [SessionGet(user)] && sessions == old(sessions)
                && unchanged(found.value)
      ensures var found := LookupSession(old(sessions), user, getFault);
              !IsBlank(user) && found.Success?
              && old(found.value.state) != SessionStateEnded && !Before(now, found.value.startedAt) ==>
                && found.value.state == SessionStateEnded && found.value.endedAt == Some(now)
                && Finished(old(sessions), old(trace) + [SessionGet(user)], user, now, saveFault, dispatchFault, deleteFault, r)
    {
      var valid := Ids.Validate(PlayerId, user);
      if valid.Fail? {
        return valid;
      }
      trace := trace + [SessionGet(user)];
      assert sessions == old(sessions);
      var found := LookupSession(sessions, user, getFault);
      if found.Failure? {
        return Fail(found.error);
      }
      var session := found.value;
      var ended := session.End(now);
      assert sessions == old(sessions);
      if ended.Fail? {
        return ended;
      }
      r := FinishSession(user, now, saveFault, dispatchFault, deleteFault);
    }

    /** The outcome of `EndSession` once the session has ended in place, against the
        repository and trace before it: the session is saved, a failed save stops there;
        then one "end" track event is dispatched, and a dispatcher failure becomes
        `ErrDispatchFailed` without the session being deleted. Only after a successful
        dispatch is the session deleted, and the delete's answer is ignored. */
    ghost predicate Finished(before: map<PlayerID, Session>, trace0: seq<Call>, user: PlayerID, now: Time,
                             saveFault: Option<Error>, dispatchFault: Option<Error>, deleteFault: Option<Error>,
                             r: Outcome<Error>)
      reads this
    {
      var saved := trace0 + [SessionSave(user)];
      var dispatched := saved + [Dispatch([EventView(EventTypeTrack, user, EventNameEnd, context, None, None, now)])];
      if saveFault.Some? then
        r == Fail(saveFault.value) && trace == saved && sessions == before
      else if IsZero(now) then
        r == Fail(Msg("timestamp cannot be zero")) && trace == saved && sessions == before
      else if dispatchFault.Some? then
        r == Fail(DispatchFailed) && trace == dispatched && sessions == before
      else
        r == Pass && trace == dispatched + [SessionDelete(user)]
        && sessions == (if deleteFault.Some? then before else before - {user})
    }

    /** `EndSession` past a successful `Session.End`; see `Finished`. */
    method FinishSession(user: PlayerID, now: Time, saveFault: Option<Error>, dispatchFault: Option<Error>,
                         deleteFault: Option<Error>)
      returns (r: Outcome<Error>)
      requires Valid() && !IsBlank(user) && user in sessions
      modifies this
      ensures Valid()
      ensures Finished(old(sessions), old(trace), user, now, saveFault, dispatchFault, deleteFault, r)
    {
      trace := trace + [SessionSave(user)];
      assert sessions == old(sessions);
      if saveFault.Some? {
        return Fail(saveFault.value);
      }
      var track := Event.NewTrackEvent(user, EventNameEnd, context, now);
      assert sessions == old(sessions);
      if track.Failure? {
        return Fail(track.error);
      }
      trace := trace + [Dispatch([View(track.value)])];
      if dispatchFault.Some? {
        return Fail(DispatchFailed);
      }
      trace := trace + [SessionDelete(user)];
      if deleteFault.None? {
        sessions := sessions - {user};
      }
      return Pass;
    }

    /** `TrackEvent`: an invalid user fails with no call, and so does a name or timestamp
        `NewTrackEvent` refuses. Application and OS details are attached only when one of
        their strings is not empty. One event is dispatched, and a dispatcher failure
        becomes `ErrDispatchFailed`. */
    method TrackEvent(user: PlayerID, name: EventName, appName: string, appVersion: string,
                      osName: string, osVersion: string, now: Time, dispatchFault: Option<Error>)
      returns (r: Outcome<Error>)
      modifies this
      ensures sessions == old(sessions)
      ensures IsBlank(user) ==> r == Fail(Msg(RequiredMessage(PlayerId))) && trace == old(trace)
      ensures var check := CheckNewTrackEvent(user, name, now);
              check.Fail? ==> r == check && trace == old(trace)
      ensures var app := Details(appName, appVersion);
              var os := Details(osName, osVersion);
              CheckNewTrackEvent(user, name, now).Pass? ==>
                && trace == old(trace) + [Dispatch([EventView(EventTypeTrack, user, name, context,
                                                              if app.Some? then Some(AppInfo(appName, appVersion)) else None,
                                                              if os.Some? then Some(OSInfo(osName, osVersion)) else None,
                                                              now)])]
                && r == (if dispatchFault.Some? then Fail(DispatchFailed) else Pass)
    {
      var valid := Ids.Validate(PlayerId, user);
      if valid.Fail? {
        return valid;
      }
      var built := Event.NewTrackEvent(user, name, context, now);
      if built.Failure? {
        return Fail(built.error);
      }
      var event := built.value;
      assert sessions == old(sessions);
      if appName != "" || appVersion != "" {
        event := event.WithAppInfo(appName, appVersion);
      }
      assert sessions == old(sessions);
      if osName != "" || osVersion != "" {
        event := event.WithOSInfo(osName, osVersion);
      }
      assert sessions == old(sessions);
      trace := trace + [Dispatch([View(event)])];
      if dispatchFault.Some? {
        return Fail(DispatchFailed);
      }
      return Pass;
    }
  }
}

=== FILE: auth_service.dfy ===
/** The authentication service of src/app/auth/service.go: Nakama authenticates, and the
    local player account is loaded or created, stamped with the device and the session,
    and saved.

    The player repository is abstracted as a map held by the service; the repository
    returns the stored account itself, so changes made before a failed save remain
    visible. Nakama's answer, a repository read failure and a save failure are
    parameters; `now` is the service clock's reading and `wallNow` the wall clock the
    account reads. */
module AuthService {
  import opened Wrappers
  import opened Clock
  import opened Errors
  import opened Ids
  import opened PlayerDomain

  /** `AuthResult`: Nakama's session tokens. */
  datatype AuthResult = AuthResult(userID: PlayerID, sessionToken: string, refreshToken: string, username: string)

  datatype Call =
    | ProviderDevice(deviceID: string, username: string, vars: map<string, string>)
    | ProviderEmail(email: string, password: string, vars: map<string, string>)
    | RepoGet(id: PlayerID)
    | RepoSave(id: PlayerID)

  /** Go's map index: the value under `key`, or the empty string when it is absent. */
  function Var(vars: map<string, string>, key: string): (v: string)
    ensures key in vars ==> v == vars[key]
    ensures key !in vars ==> v == ""
  {
    if key in vars then vars[key] else ""
  }

  /** Whether the repository's answer makes the service create a new account: the read
      failed with `ErrNotFound`, or it found nothing. */
  predicate Creates(accounts: map<PlayerID, PlayerAccount>, id: PlayerID, getFault: Option<Error>)
  {
    if getFault.Some? then getFault.value == NotFound else id !in accounts
  }

  /** The account's activity after a sign-in: the device, if any, is registered unless
      the account is suspended or the device has no identifier; then the session is
      recorded unless it has no identifier. Either step stamps the account with the wall
      clock; the suspension and its message are kept. */
  function AfterSignIn(a: Activity, device: Option<DeviceFingerprint>, session: SessionMetadata, wallNow: Time): (b: Activity)
    ensures b.suspended == a.suspended && b.suspensionMsg == a.suspensionMsg
    ensures b.devices.Keys == a.devices.Keys + (if device.Some? && !a.suspended && device.value.id != "" then {device.value.id} else {})
    ensures forall k :: k in a.devices && (device.None? || k != device.value.id) ==> b.devices[k] == a.devices[k]
    ensures |b.sessions| == |a.sessions| + (if session.sessionID == "" then 0 else 1)
    ensures b.sessions[..|a.sessions|] == a.sessions
    ensures session.sessionID != "" ==> b.sessions[|a.sessions|] == Issued(session, wallNow)
    ensures (device.Some? && !a.suspended && device.value.id != "") || session.sessionID != "" ==> b.updatedAt == wallNow
    ensures !((device.Some? && !a.suspended && device.value.id != "") || session.sessionID != "") ==> b == a
  {
    var registers := device.Some? && !a.suspended && device.value.id != "";
    var devices := if registers then a.devices[device.value.id := Seen(device.value, wallNow)] else a.devices;
    var sessions := if session.sessionID == "" then a.sessions else a.sessions + [Issued(session, wallNow)];
    var updatedAt := if registers || session.sessionID != "" then wallNow else a.updatedAt;
    Activity(devices, sessions, a.suspended, a.suspensionMsg, updatedAt)
  }

  class Service {
    var accounts: map<PlayerID, PlayerAccount>
    ghost var trace: seq<Call>

    /** Every account is stored under its own identifier. */
    ghost predicate Valid()
      reads this, accounts.Values
    {
      forall id :: id in accounts ==> accounts[id].id == id
    }

    constructor ()
      ensures accounts == map[] && trace == [] && Valid()
    {
      accounts, trace := map[], [];
    }

    /** The activity of the account stored under `id`, or that of a new account. */
    ghost function Prior(id: PlayerID): Activity
      reads this, accounts.Values
    {
      if id in accounts then accounts[id].CurrentActivity() else Activity(map[], [], false, "", ZeroTime)
    }

    /** `AuthenticateDevice`: Nakama authenticates the device first and its failure is
        returned with nothing else done. The account is then signed in with the email
        from `vars` (empty when absent), the device with the platform from `vars`, and a
        session carrying Nakama's session token, all stamped `now`; on success Nakama's
        result is returned. */
    method AuthenticateDevice(deviceID: string, username: string, vars: map<string, string>, now: Time, wallNow: Time,
                              authenticated: Result<AuthResult, Error>, getFault: Option<Error>, saveFault: Option<Error>)
      returns (r: Result<AuthResult, Error>)
      requires Valid()
      modifies this, if authenticated.Success? && authenticated.value.userID in accounts
                     then {accounts[authenticated.value.userID]} else {}
      ensures Valid()
      ensures authenticated.Failure? ==>
                r == Failure(authenticated.error) && trace == old(trace) + [ProviderDevice(deviceID, username, vars)]
                && accounts == old(accounts)
      ensures authenticated.Success? && getFault.Some? && authenticated.value.userID in old(accounts)
              ==> unchanged(old(accounts)[authenticated.value.userID])
      ensures authenticated.Success? ==>
                var uid := authenticated.value.userID;
                SignedIn(uid, Var(vars, "email"), username, now,
                         Some(DeviceFingerprint(deviceID, Var(vars, "platform"), now)),
                         SessionMetadata(authenticated.value.sessionToken, "", "", now), wallNow, getFault, saveFault,
                         old(trace) + [ProviderDevice(deviceID, username, vars)], old(accounts), old(Prior(uid)),
                         if r.Success? then Pass else Fail(r.error))
                && (r.Success? ==> r.value == authenticated.value)
    {
      trace := trace + [ProviderDevice(deviceID, username, vars)];
      assert accounts == old(accounts);
      if authenticated.Failure? {
        return Failure(authenticated.error);
      }
      var result := authenticated.value;
      var device := DeviceFingerprint(deviceID, Var(vars, "platform"), now);
      var session := SessionMetadata(result.sessionToken, "", "", now);
      var outcome := SignIn(result.userID, Var(vars, "email"), username, now, Some(device), session, wallNow, getFault, saveFault);
      if outcome.Fail? {
        return Failure(outcome.error);
      }
      return Success(result);
    }

    /** `AuthenticateEmail`: as `AuthenticateDevice`, but Nakama authenticates an email
        and password, a new account takes that email and Nakama's username, and no device
        is registered. */
    method AuthenticateEmail(email: string, password: string, vars: map<string, string>, now: Time, wallNow: Time,
                             authenticated: Result<AuthResult, Error>, getFault: Option<Error>, saveFault: Option<Error>)
      returns (r: Result<AuthResult, Error>)
      requires Valid()
      modifies this, if authenticated.Success? && authenticated.value.userID in accounts
                     then {accounts[authenticated.value.userID]} else {}
      ensures Valid()
      ensures authenticated.Failure? ==>
                r == Failure(authenticated.error) && trace == old(trace) + [ProviderEmail(email, password, vars)]
                && accounts == old(accounts)
      ensures authenticated.Success? && getFault.Some? && authenticated.value.userID in old(accounts)
              ==> unchanged(old(accounts)[authenticated.value.userID])
      ensures authenticated.Success? ==>
                var uid := authenticated.value.userID;
                SignedIn(uid, email, authenticated.value.username, now, None,
                         SessionMetadata(authenticated.value.sessionToken, "", "", now), wallNow, getFault, saveFault,
                         old(trace) + [ProviderEmail(email, password, vars)], old(accounts), old(Prior(uid)),
                         if r.Success? then Pass else Fail(r.error))
                && (r.Success? ==> r.value == authenticated.value)
    {
      trace := trace + [ProviderEmail(email, password, vars)];
      assert accounts == old(accounts);
      if authenticated.Failure? {
        return Failure(authenticated.error);
      }
      var result := authenticated.value;
      var session := SessionMetadata(result.sessionToken, "", "", now);
      var outcome := SignIn(result.userID, email, result.username, now, None, session, wallNow, getFault, saveFault);
      if outcome.Fail? {
        return Failure(outcome.error);
      }
      return Success(result);
    }

    /** What signing in the account `id` leaves behind. A repository read failure other
        than `ErrNotFound` is returned with nothing changed. A stored account is stamped
        and saved back; being the stored object, it is stamped even when the save fails.
        Otherwise a new account is created, whose refusal is returned before any save, and
        it is stored, stamped, only when the save succeeds. */
    ghost predicate SignedIn(id: PlayerID, email: string, displayName: string, now: Time, device: Option<DeviceFingerprint>,
                             session: SessionMetadata, wallNow: Time, getFault: Option<Error>, saveFault: Option<Error>,
                             trace0: seq<Call>, accounts0: map<PlayerID, PlayerAccount>, prior: Activity, r: Outcome<Error>)
      reads this, accounts.Values
    {
      if getFault.Some? && getFault.value != NotFound then
        r == Fail(getFault.value) && trace == trace0 + [RepoGet(id)] && accounts == accounts0
      else if !Creates(accounts0, id, getFault) then
        && trace == trace0 + [RepoGet(id)] + [RepoSave(id)] && accounts == accounts0 && id in accounts
        && accounts[id].CurrentActivity() == AfterSignIn(prior, device, session, wallNow)
        && r == (if saveFault.Some? then Fail(saveFault.value) else Pass)
      else if CheckNewPlayerAccount(id, email).Fail? then
        r == CheckNewPlayerAccount(id, email) && trace == trace0 + [RepoGet(id)] && accounts == accounts0
      else
        && trace == trace0 + [RepoGet(id)] + [RepoSave(id)]
        && (saveFault.Some? ==> r == Fail(saveFault.value) && accounts == accounts0)
        && (saveFault.None? ==>
              && r == Pass && id in accounts && accounts == accounts0[id := accounts[id]]
              && accounts[id].email == email && accounts[id].displayName == displayName && accounts[id].createdAt == now
              && accounts[id].CurrentActivity() == AfterSignIn(Activity(map[], [], false, "", now), device, session, wallNow))
    }

    /** The part both flows share once Nakama has answered: `GetByID`, then the stored
        account or, when the read reports `ErrNotFound`, a new one from `NewPlayerAccount`
        at `now`. */
    method SignIn(id: PlayerID, email: string, displayName: string, now: Time, device: Option<DeviceFingerprint>,
                  session: SessionMetadata, wallNow: Time, getFault: Option<Error>, saveFault: Option<Error>)
      returns (r: Outcome<Error>)
      requires Valid()
      modifies this, if id in accounts then {accounts[id]} else {}
      ensures Valid()
      ensures SignedIn(id, email, displayName, now, device, session, wallNow, getFault, saveFault,
                       old(trace), old(accounts), old(Prior(id)), r)
      ensures getFault.Some? && id in old(accounts) ==> unchanged(old(accounts)[id])
    {
      if getFault.Some? && getFault.value != NotFound {
        trace := trace + [RepoGet(id)];
        return Fail(getFault.value);
      }
      if !Creates(accounts, id, getFault) {
        r := SignInStored(id, device, session, wallNow, saveFault);
      } else {
        r := SignInNew(id, email, displayName, now, device, session, wallNow, saveFault);
      }
    }

    /** A stored account is stamped and saved back; being the stored object, it stays
        stamped when the save fails. */
    method SignInStored(id: PlayerID, device: Option<DeviceFingerprint>, session: SessionMetadata, wallNow: Time,
                        saveFault: Option<Error>)
      returns (r: Outcome<Error>)
      requires Valid() && id in accounts
      modifies this, accounts[id]
      ensures Valid()
      ensures trace == old(trace) + [RepoGet(id)] + [RepoSave(id)] && accounts == old(accounts)
      ensures accounts[id].CurrentActivity() == AfterSignIn(old(accounts[id].CurrentActivity()), device, session, wallNow)
      ensures r == (if saveFault.Some? then Fail(saveFault.value) else Pass)
    {
      trace := trace + [RepoGet(id)];
      var account := accounts[id];
      Stamp(account, device, session, wallNow);
      r := Store(account, saveFault);
    }

    /** A new account is created, whose refusal is returned before any save; it is
        stored, stamped, only when the save succeeds. */
    method SignInNew(id: PlayerID, email: string, displayName: string, now: Time, device: Option<DeviceFingerprint>,
                     session: SessionMetadata, wallNow: Time, saveFault: Option<Error>)
      returns (r: Outcome<Error>)
      requires Valid()
      modifies this
      ensures Valid()
      ensures CheckNewPlayerAccount(id, email).Fail? ==>
                r == CheckNewPlayerAccount(id, email) && trace == old(trace) + [RepoGet(id)] && accounts == old(accounts)
      ensures CheckNewPlayerAccount(id, email).Pass? ==>
                && trace == old(trace) + [RepoGet(id)] + [RepoSave(id)]
                && (saveFault.Some? ==> r == Fail(saveFault.value) && accounts == old(accounts))
                && (saveFault.None? ==>
                      && r == Pass && id in accounts && accounts == old(accounts)[id := accounts[id]]
                      && accounts[id].email == email && accounts[id].displayName == displayName
                      && accounts[id].createdAt == now
                      && accounts[id].CurrentActivity() == AfterSignIn(Activity(map[], [], false, "", now), device, session, wallNow))
    {
      trace := trace + [RepoGet(id)];
      assert accounts == old(accounts);
      ghost var check := CheckNewPlayerAccount(id, email);
      var created := PlayerAccount.NewPlayerAccount(id, email, displayName, now);
      if created.Failure? {
        assert check == Fail(created.error);
        return Fail(created.error);
      }
      assert check.Pass?;
      var account := created.value;
      assert account.CurrentActivity() == Activity(map[], [], false, "", now);
      Stamp(account, device, session, wallNow);
      r := Store(account, saveFault);
    }

    /** `RegisterDevice`, whose refusal is ignored, then `RecordSession`. */
    method Stamp(account: PlayerAccount, device: Option<DeviceFingerprint>, session: SessionMetadata, wallNow: Time)
      modifies account
      ensures account.CurrentActivity() == AfterSignIn(old(account.CurrentActivity()), device, session, wallNow)
    {
      if device.Some? {
        var _ := account.RegisterDevice(device.value, wallNow);
      }
      account.RecordSession(session, wallNow);
    }

    /** The repository's `Save`: the account is stored under its identifier unless the
        save fails. */
    method Store(account: PlayerAccount, saveFault: Option<Error>) returns (r: Outcome<Error>)
      modifies this
      ensures trace == old(trace) + [RepoSave(account.id)]
      ensures r == (if saveFault.Some? then Fail(saveFault.value) else Pass)
      ensures accounts == if saveFault.Some? then old(accounts) else old(accounts)[account.id := account]
    {
      trace := trace + [RepoSave(account.id)];
      if saveFault.Some? {
        return Fail(saveFault.value);
      }
      accounts := accounts[account.id := account];
      return Pass;
    }
  }
}

=== FILE: battle.dfy ===
/** The Battle aggregate of src/domain/battle/battle.go. */
module BattleDomain {
  import opened Wrappers
  import opened Clock
  import opened Errors
  import opened Ids
  import opened Bytes

  /** The authoritative match state mirrored from the match handler. */
  datatype MatchState = MatchState(tick: int, payload: seq<byte>, updatedAt: Time)

  /** A player's place in a battle. */
  datatype PlayerSlot = PlayerSlot(playerID: PlayerID, joinedAt: Time, ready: bool)

  /** Some slot holds `player`. */
  predicate HasPlayer(slots: seq<PlayerSlot>, player: PlayerID)
  {
    exists i :: 0 <= i < |slots| && slots[i].playerID == player
  }

  /** No player occupies two slots. */
  predicate DistinctPlayers(slots: seq<PlayerSlot>)
  {
    forall i, j :: 0 <= i < j < |slots| ==> slots[i].playerID != slots[j].playerID
  }

  /** The position of the first slot holding `player`, if there is one. */
  function FindSlot(slots: seq<PlayerSlot>, player: PlayerID): (r: Option<nat>)
    ensures r.None? <==> !HasPlayer(slots, player)
    ensures r.Some? ==> r.value < |slots| && slots[r.value].playerID == player
    ensures r.Some? ==> forall j :: 0 <= j < r.value ==> slots[j].playerID != player
  {
    if slots == [] then None
    else if slots[0].playerID == player then Some(0)
    else match FindSlot(slots[1..], player)
      case None => None
      case Some(k) => Some(k + 1)
  }

  /** The checks of `NewBattle`: it fails exactly when the battle identifier, the leader
      or the idempotency key is blank, reporting them in that order. */
  function CheckNewBattle(id: BattleID, leader: PlayerID, key: IdempotencyKey): (r: Outcome<Error>)
    ensures r.Pass? <==> !IsBlank(id) && !IsBlank(leader) && !IsBlank(key)
    ensures IsBlank(id) ==> r == Fail(Msg(RequiredMessage(BattleId)))
    ensures !IsBlank(id) && IsBlank(leader) ==> r == Fail(Msg(RequiredMessage(PlayerId)))
  {
    if Validate(BattleId, id).Fail? then Validate(BattleId, id)
    else if Validate(PlayerId, leader).Fail? then Validate(PlayerId, leader)
    else Validate(IdempotencyKeyId, key)
  }

  /** A battle around an external match: an ordered list of player slots. */
  class Battle {
    const id: BattleID
    const leader: PlayerID
    const idempotencyKey: IdempotencyKey
    const createdAt: Time
    var slots: seq<PlayerSlot>
    var stateSnapshot: MatchState
    var updatedAt: Time

    /** No duplicate players, and the leader keeps the first slot. */
    ghost predicate Valid()
      reads this
    {
      DistinctPlayers(slots) && |slots| >= 1 && slots[0].playerID == leader
    }

    /** The struct literal of `NewBattle`; the snapshot is Go's zero value. */
    constructor (id: BattleID, leader: PlayerID, key: IdempotencyKey, now: Time)
      ensures this.id == id && this.leader == leader && idempotencyKey == key
      ensures slots == [PlayerSlot(leader, now, true)]
      ensures stateSnapshot == MatchState(0, [], ZeroTime)
      ensures createdAt == now && updatedAt == now
      ensures Valid()
    {
      this.id, this.leader, idempotencyKey := id, leader, key;
      slots := [PlayerSlot(leader, now, true)];
      stateSnapshot := MatchState(0, [], ZeroTime);
      createdAt, updatedAt := now, now;
    }

    /** `NewBattle`: an error exactly when a check fails; otherwise a fresh battle whose
        only slot is the ready leader, joined at `now`. */
    static method NewBattle(id: BattleID, leader: PlayerID, key: IdempotencyKey, now: Time)
      returns (r: Result<Battle, Error>)
      ensures var check := CheckNewBattle(id, leader, key);
              (r.Failure? <==> check.Fail?) && (r.Failure? ==> r.error == check.error)
      ensures r.Success? ==> fresh(r.value) && r.value.Valid()
      ensures r.Success? ==> r.value.id == id && r.value.leader == leader
                             && r.value.idempotencyKey == key
                             && r.value.slots == [PlayerSlot(leader, now, true)]
                             && r.value.stateSnapshot == MatchState(0, [], ZeroTime)
                             && r.value.createdAt == now && r.value.updatedAt == now
    {
      var check := CheckNewBattle(id, leader, key);
      if check.Fail? {
        return Failure(check.error);
      }
      var b := new Battle(id, leader, key, now);
      return Success(b);
    }

    /** `AddPlayer`: a player already in a slot is refused and nothing changes; any other
        identifier (even a blank one) gets a new, not ready slot at the end. */
    method AddPlayer(player: PlayerID, now: Time) returns (r: Outcome<Error>)
      modifies this
      ensures r.Fail? <==> HasPlayer(old(slots), player)
      ensures r.Fail? ==> r == Fail(PlayerAlreadyJoined) && unchanged(this)
      ensures r.Pass? ==> slots == old(slots) + [PlayerSlot(player, now, false)]
                          && updatedAt == now && stateSnapshot == old(stateSnapshot)
      ensures old(Valid()) ==> Valid()
    {
      for i := 0 to |slots|
        invariant forall j :: 0 <= j < i ==> slots[j].playerID != player
      {
        if slots[i].playerID == player {
          return Fail(PlayerAlreadyJoined);
        }
      }
      slots := slots + [PlayerSlot(player, now, false)];
      updatedAt := now;
      return Pass;
    }

    /** `MarkReady`: an absent player is refused and nothing changes; otherwise only the
        ready flag of that player's slot changes. */
    method MarkReady(player: PlayerID, ready: bool, now: Time) returns (r: Outcome<Error>)
      modifies this
      ensures r.Fail? <==> !HasPlayer(old(slots), player)
      ensures r.Fail? ==> r == Fail(PlayerNotFound) && unchanged(this)
      ensures r.Pass? ==> var k := FindSlot(old(slots), player).value;
                          slots == old(slots)[k := old(slots)[k].(ready := ready)]
                          && updatedAt == now && stateSnapshot == old(stateSnapshot)
      ensures old(Valid()) ==> Valid()
    {
      for i := 0 to |slots|
        invariant slots == old(slots) && updatedAt == old(updatedAt)
        invariant forall j :: 0 <= j < i ==> slots[j].playerID != player
      {
        if slots[i].playerID == player {
          slots := slots[i := slots[i].(ready := ready)];
          updatedAt := now;
          return Pass;
        }
      }
      return Fail(PlayerNotFound);
    }

    /** `UpdateSnapshot`: stores the state, stamping it with the wall clock `wallNow` when
        its own time is zero, and takes that time as the battle's update time. */
    method UpdateSnapshot(state: MatchState, wallNow: Time)
      modifies this
      ensures var stamped := if IsZero(state.updatedAt) then state.(updatedAt := wallNow) else state;
              stateSnapshot == stamped && updatedAt == stamped.updatedAt
      ensures slots == old(slots)
    {
      var stamped := state;
      if IsZero(stamped.updatedAt) {
        stamped := stamped.(updatedAt := wallNow);
      }
      stateSnapshot := stamped;
      updatedAt := stamped.updatedAt;
    }
  }
}

=== FILE: battle_service.dfy ===
/** The battle start service of src/app/battles/service.go.

    The battle repository is abstracted as a map held by the service; Nakama's answer to
    `CreateMatch` and whether the save fails are parameters, and `now` is the service
    clock's reading. */
module BattleService {
  import opened Wrappers
  import opened Clock
  import opened Errors
  import opened Ids
  import opened BattleDomain

  /** Match metadata; Go's values are untyped, here they are strings. */
  type Metadata = map<string, string>

  /** `StartCommand`. */
  datatype StartCommand = StartCommand(leaderID: PlayerID, idempotencyKey: IdempotencyKey, metadata: Metadata, preset: string)

  /** `StartBattlePayload`: the fields sent to Nakama. */
  datatype StartBattlePayload = StartBattlePayload(leaderID: PlayerID, metadata: Metadata, preset: string)

  /** `StartBattleResult` and `StartResult`, which carry the same two fields. */
  datatype StartResult = StartResult(battleID: BattleID, matchID: string)

  /** The payload `StartBattle` sends: the command's leader, metadata and preset. */
  function Payload(cmd: StartCommand): (p: StartBattlePayload)
    ensures p.leaderID == cmd.leaderID && p.metadata == cmd.metadata && p.preset == cmd.preset
  {
    StartBattlePayload(cmd.leaderID, cmd.metadata, cmd.preset)
  }

  datatype Call = CreateMatch(payload: StartBattlePayload) | Save(battle: BattleID)

  class Service {
    var battles: map<BattleID, Battle>
    ghost var trace: seq<Call>

    constructor ()
      ensures battles == map[] && trace == []
    {
      battles, trace := map[], [];
    }

    /** `StartBattle`: an invalid leader or key fails before Nakama is called. Otherwise
        Nakama is asked for a match first; its failure is returned with nothing saved, and
        its success is registered as a battle. */
    method StartBattle(cmd: StartCommand, now: Time, created: Result<StartResult, Error>, saveFault: Option<Error>)
      returns (r: Result<StartResult, Error>)
      modifies this
      ensures IsBlank(cmd.leaderID) ==> r == Failure(Msg(RequiredMessage(PlayerId))) && unchanged(this)
      ensures !IsBlank(cmd.leaderID) && IsBlank(cmd.idempotencyKey) ==>
                r == Failure(Msg(RequiredMessage(IdempotencyKeyId))) && unchanged(this)
      ensures !IsBlank(cmd.leaderID) && !IsBlank(cmd.idempotencyKey) && created.Failure? ==>
                r == Failure(created.error) && trace == old(trace) + [CreateMatch(Payload(cmd))] && battles == old(battles)
      ensures !IsBlank(cmd.leaderID) && !IsBlank(cmd.idempotencyKey) && created.Success? ==>
                Registered(cmd, now, created.value, saveFault, old(trace) + [CreateMatch(Payload(cmd))], old(battles), r)
    {
      var leaderOk := Ids.Validate(PlayerId, cmd.leaderID);
      if leaderOk.Fail? {
        return Failure(leaderOk.error);
      }
      var keyOk := Ids.Validate(IdempotencyKeyId, cmd.idempotencyKey);
      if keyOk.Fail? {
        return Failure(keyOk.error);
      }
      r := Launch(cmd, now, created, saveFault);
    }

    /** The match is created with the command's leader, metadata and preset; a Nakama
        failure saves nothing, otherwise the battle is registered. */
    method Launch(cmd: StartCommand, now: Time, created: Result<StartResult, Error>, saveFault: Option<Error>)
      returns (r: Result<StartResult, Error>)
      modifies this
      ensures created.Failure? ==>
                r == Failure(created.error) && trace == old(trace) + [CreateMatch(Payload(cmd))] && battles == old(battles)
      ensures created.Success? ==> Registered(cmd, now, created.value, saveFault, old(trace) + [CreateMatch(Payload(cmd))], old(battles), r)
    {
      trace := trace + [CreateMatch(Payload(cmd))];
      if created.Failure? {
        return Failure(created.error);
      }
      r := Register(cmd, now, created.value, saveFault);
    }

    /** What registering the battle Nakama created leaves behind. The battle is built
        around the identifier Nakama returned, so an identifier the battle refuses fails
        after the match already exists, saving nothing. A failed save is returned; on
        success the result is Nakama's battle and match identifiers and the new battle,
        carrying that identifier, led and readied by the leader, with an empty snapshot
        and created at `now`, is stored under it. */
    ghost predicate Registered(cmd: StartCommand, now: Time, result: StartResult, saveFault: Option<Error>,
                               trace0: seq<Call>, battles0: map<BattleID, Battle>, r: Result<StartResult, Error>)
      reads this, battles.Values
    {
      var id := result.battleID;
      var check := CheckNewBattle(id, cmd.leaderID, cmd.idempotencyKey);
      if check.Fail? then
        r == Failure(check.error) && trace == trace0 && battles == battles0
      else
        && trace == trace0 + [Save(id)]
        && (saveFault.Some? ==> r == Failure(saveFault.value) && battles == battles0)
        && (saveFault.None? ==>
              r == Success(result) && id in battles && battles == battles0[id := battles[id]]
              && battles[id].Valid() && battles[id].id == id && battles[id].leader == cmd.leaderID
              && battles[id].idempotencyKey == cmd.idempotencyKey
              && battles[id].slots == [PlayerSlot(cmd.leaderID, now, true)]
              && battles[id].stateSnapshot == MatchState(0, [], ZeroTime)
              && battles[id].createdAt == now && battles[id].updatedAt == now)
    }

    method Register(cmd: StartCommand, now: Time, result: StartResult, saveFault: Option<Error>)
      returns (r: Result<StartResult, Error>)
      modifies this
      ensures Registered(cmd, now, result, saveFault, old(trace), old(battles), r)
    {
      var built := Battle.NewBattle(result.battleID, cmd.leaderID, cmd.idempotencyKey, now);
      if built.Failure? {
        return Failure(built.error);
      }
      var aggregate := built.value;
      var saved := Store(aggregate, saveFault);
      if saved.Fail? {
        return Failure(saved.error);
      }
      return Success(result);
    }

    /** The repository's `Save`: the battle is stored under its identifier unless the
        save fails. */
    method Store(battle: Battle, saveFault: Option<Error>) returns (r: Outcome<Error>)
      modifies this
      ensures trace == old(trace) + [Save(battle.id)]
      ensures r == (if saveFault.Some? then Fail(saveFault.value) else Pass)
      ensures battles == if saveFault.Some? then old(battles) else old(battles)[battle.id := battle]
    {
      trace := trace + [Save(battle.id)];
      if saveFault.Some? {
        return Fail(saveFault.value);
      }
      battles := battles[battle.id := battle];
      return Pass;
    }
  }
}

=== FILE: bot_service.dfy ===
/** The bot command intake of src/app/bot/service.go.

    The command repository is abstracted as the map of saved commands by idempotency key;
    `ReserveCommand` answers from it unless the repository reports an error (the
    reservation itself, and its atomicity, are not modelled). Whether a producer and a
    notifier are configured are fixed flags of the service; repository and producer
    failures are outcome parameters, and `now` is the service clock's reading. */
module BotService {
  import opened Wrappers
  import opened Clock
  import opened Errors
  import opened Ids
  import opened Bytes
  import opened BotDomain

  /** `CommandInput`. */
  datatype CommandInput = CommandInput(
    commandID: BotCommandID, channel: string, playerID: PlayerID, payload: seq<byte>, idempotencyKey: IdempotencyKey)

  /** `CommandResult`. */
  datatype CommandResult = CommandResult(accepted: bool)

  /** A call the service makes on one of its collaborators; a save records the state the
      command had when it was saved. */
  datatype Call =
    | Reserve(key: IdempotencyKey)
    | Save(command: BotCommandID, state: CommandState)
    | Enqueue(command: BotCommandID)
    | Notify(player: PlayerID)

  /** What `ReserveCommand` answers: the reported error when the repository fails, else
      the command saved under the key, else `ErrNotFound`. */
  function Reservation(m: map<IdempotencyKey, Command>, key: IdempotencyKey, fault: Option<Error>): (r: Result<Command, Error>)
    ensures fault.Some? ==> r == Failure(fault.value)
    ensures fault.None? ==> (r.Success? <==> key in m)
    ensures r.Success? ==> key in m && r.value == m[key]
    ensures fault.None? && key !in m ==> r == Failure(NotFound)
  {
    if fault.Some? then Failure(fault.value)
    else if key in m then Success(m[key])
    else Failure(NotFound)
  }

  class Service {
    const hasProducer: bool
    const hasNotifier: bool
    var commands: map<IdempotencyKey, Command>
    ghost var trace: seq<Call>

    /** `NewService` over an empty repository. */
    constructor (hasProducer: bool, hasNotifier: bool)
      ensures this.hasProducer == hasProducer && this.hasNotifier == hasNotifier
      ensures commands == map[] && trace == []
    {
      this.hasProducer, this.hasNotifier := hasProducer, hasNotifier;
      commands, trace := map[], [];
    }

    /** `Handle`: reserves the key first. A command already saved under it is acknowledged
        when completed and refused with `ErrDuplicate` otherwise, with no further call;
        a reservation error other than `ErrNotFound` is returned as it is. Only then are
        the command identifier and the key checked (see `Admit` for the rest). */
    method Handle(input: CommandInput, now: Time, reserveFault: Option<Error>, saveFault: Option<Error>,
                  enqueueFault: Option<Error>)
      returns (r: Result<CommandResult, Error>)
      modifies this
      ensures var found := Reservation(old(commands), input.idempotencyKey, reserveFault);
              found.Success? || found.error != NotFound ==>
                && trace == old(trace) + [Reserve(input.idempotencyKey)] && commands == old(commands)
                && (found.Success? && found.value.state == CommandStateCompleted ==> r == Success(CommandResult(true)))
                && (found.Success? && found.value.state != CommandStateCompleted ==> r == Failure(Duplicate))
                && (found.Failure? ==> r == Failure(found.error))
      ensures var found := Reservation(old(commands), input.idempotencyKey, reserveFault);
              var check := CheckNewCommand(input.commandID, input.idempotencyKey);
              found.Failure? && found.error == NotFound && check.Fail? ==>
                r == Failure(check.error) && trace == old(trace) + [Reserve(input.idempotencyKey)]
                && commands == old(commands)
      ensures var found := Reservation(old(commands), input.idempotencyKey, reserveFault);
              var check := CheckNewCommand(input.commandID, input.idempotencyKey);
              found.Failure? && found.error == NotFound && check.Pass? ==>
                Admitted(input, now, saveFault, enqueueFault, old(trace) + [Reserve(input.idempotencyKey)], old(commands), r)
      ensures r.Success? ==> r.value.accepted
    {
      trace := trace + [Reserve(input.idempotencyKey)];
      var found := Reservation(commands, input.idempotencyKey, reserveFault);
      if found.Success? {
        if found.value.state == CommandStateCompleted {
          return Success(CommandResult(true));
        }
        return Failure(Duplicate);
      } else if found.error != NotFound {
        return Failure(found.error);
      }
      r := Admit(input, now, saveFault, enqueueFault);
    }

    /** What `Handle` leaves behind past a reservation that found nothing, for a command
        whose identifier and key are accepted. The command is saved pending before it is
        enqueued; a failed save stops there. A failed enqueue marks the command failed
        (one retry, the error's text), saves it again whatever that save answers, and
        returns the enqueue error. Otherwise the player is notified when a notifier is
        configured and the player identifier is not empty, whatever the notifier answers,
        and the command is acknowledged while still pending. */
    ghost predicate Admitted(input: CommandInput, now: Time, saveFault: Option<Error>, enqueueFault: Option<Error>,
                             trace0: seq<Call>, commands0: map<IdempotencyKey, Command>, r: Result<CommandResult, Error>)
      reads this, commands.Values
    {
      var key := input.idempotencyKey;
      var id := input.commandID;
      var saved := trace0 + [Save(id, CommandStatePending)];
      if saveFault.Some? then
        r == Failure(saveFault.value) && commands == commands0 && trace == saved
      else
        && key in commands && commands == commands0[key := commands[key]]
        && commands[key].id == id && commands[key].idempotencyKey == key && commands[key].channel == input.channel
        && commands[key].payload == input.payload && commands[key].createdAt == now
        && commands[key].completedAt == ZeroTime
        && if hasProducer && enqueueFault.Some? then
             && commands[key].state == CommandStateFailed && commands[key].retryCount == 1
             && commands[key].lastError == ErrorText(enqueueFault.value) && commands[key].attemptedAt == now
             && trace == saved + [Enqueue(id)] + [Save(id, CommandStateFailed)]
             && r == Failure(enqueueFault.value)
           else
             && commands[key].state == CommandStatePending && commands[key].retryCount == 0
             && commands[key].lastError == "" && IsZero(commands[key].attemptedAt)
             && trace == saved + (if hasProducer then [Enqueue(id)] else [])
                               + (if hasNotifier && input.playerID != "" then [Notify(input.playerID)] else [])
             && r == Success(CommandResult(true))
    }

    /** `Handle` past a reservation that found nothing: a rejected identifier or key fails
        with no further call; an accepted command is built at `now` and submitted. */
    method Admit(input: CommandInput, now: Time, saveFault: Option<Error>, enqueueFault: Option<Error>)
      returns (r: Result<CommandResult, Error>)
      modifies this
      ensures var check := CheckNewCommand(input.commandID, input.idempotencyKey);
              check.Fail? ==> r == Failure(check.error) && trace == old(trace) && commands == old(commands)
      ensures CheckNewCommand(input.commandID, input.idempotencyKey).Pass? ==>
                Admitted(input, now, saveFault, enqueueFault, old(trace), old(commands), r)
      ensures CheckNewCommand(input.commandID, input.idempotencyKey).Pass? && saveFault.None? ==>
                input.idempotencyKey in commands && fresh(commands[input.idempotencyKey])
    {
      var built := Command.NewCommand(input.commandID, input.channel, input.payload, input.idempotencyKey, now);
      if built.Failure? {
        return Failure(built.error);
      }
      r := Submit(built.value, input, now, saveFault, enqueueFault);
    }

    /** The save, enqueue and notify steps of `Handle` for a newly built command. */
    method Submit(cmd: Command, input: CommandInput, now: Time, saveFault: Option<Error>, enqueueFault: Option<Error>)
      returns (r: Result<CommandResult, Error>)
      requires cmd.state == CommandStatePending && cmd.retryCount == 0 && cmd.completedAt == ZeroTime
      requires cmd.lastError == "" && IsZero(cmd.attemptedAt)
      requires cmd.id == input.commandID && cmd.channel == input.channel && cmd.payload == input.payload
      requires cmd.idempotencyKey == input.idempotencyKey && cmd.createdAt == now
      modifies this, cmd
      ensures Admitted(input, now, saveFault, enqueueFault, old(trace), old(commands), r)
      ensures saveFault.None? ==> input.idempotencyKey in commands && commands[input.idempotencyKey] == cmd
    {
      trace := trace + [Save(cmd.id, cmd.state)];
      if saveFault.Some? {
        return Failure(saveFault.value);
      }
      commands := commands[cmd.idempotencyKey := cmd];
      if hasProducer {
        trace := trace + [Enqueue(cmd.id)];
        if enqueueFault.Some? {
          cmd.MarkAttempt(now, enqueueFault);
          trace := trace + [Save(cmd.id, cmd.state)];
          return Failure(enqueueFault.value);
        }
      }
      if input.playerID != "" && hasNotifier {
        trace := trace + [Notify(input.playerID)];
      }
      return Success(CommandResult(true));
    }
  }
}

=== FILE: bytes.dfy ===
/** Go's `[]byte`, carried through the core as opaque payloads. */
module Bytes {
  newtype byte = x: int | 0 <= x < 256
}

=== FILE: clock.dfy ===
/** Go's `time.Time` and `time.Duration`, reduced to what the core uses. */
module Clock {

  /** An instant: nanoseconds since Go's zero time, January 1 of year 1, 00:00:00 UTC.
      Go's `IsZero` holds exactly for that instant. */
  type Time = int

  /** A `time.Duration`: a signed count of nanoseconds. */
  type Duration = int

  const ZeroTime: Time := 0
  const Second: Duration := 1_000_000_000
  const Hour: Duration := 3600 * Second

  /** Seconds from Go's zero time to the Unix epoch (1970-01-01T00:00:00Z). */
  const UnixEpochSeconds: int := 62_135_596_800

  predicate IsZero(t: Time) { t == ZeroTime }

  /** `t.Before(u)`. */
  predicate Before(t: Time, u: Time) { t < u }

  /** `t.After(u)`. */
  predicate After(t: Time, u: Time) { t > u }

  /** `t.Unix()`: whole seconds since the Unix epoch, rounded down. */
  function UnixSeconds(t: Time): (s: int)
    ensures (s + UnixEpochSeconds) * Second <= t < (s + UnixEpochSeconds + 1) * Second
  {
    t / Second - UnixEpochSeconds
  }

  /** `int(d.Seconds())`: the duration in seconds, truncated toward zero. */
  function WholeSeconds(d: Duration): (s: int)
    ensures d >= 0 ==> s >= 0 && s * Second <= d < (s + 1) * Second
    ensures d < 0 ==> s <= 0 && (s - 1) * Second < d <= s * Second
  {
    if d >= 0 then d / Second else -((-d) / Second)
  }
}

=== FILE: command.dfy ===
/** The bot Command aggregate of src/domain/bot/command.go. */
module BotDomain {
  import opened Wrappers
  import opened Clock
  import opened Errors
  import opened Ids
  import opened Bytes

  datatype CommandState = CommandStatePending | CommandStateCompleted | CommandStateFailed

  /** The checks of `NewCommand`: it fails exactly when the command identifier or the
      idempotency key is blank; the channel is not checked. */
  function CheckNewCommand(id: BotCommandID, key: IdempotencyKey): (r: Outcome<Error>)
    ensures r.Pass? <==> !IsBlank(id) && !IsBlank(key)
    ensures IsBlank(id) ==> r == Fail(Msg(RequiredMessage(BotCommandId)))
  {
    if Validate(BotCommandId, id).Fail? then Validate(BotCommandId, id)
    else Validate(IdempotencyKeyId, key)
  }

  /** A bot command, deduplicated by its idempotency key and retried on failure. */
  class Command {
    const id: BotCommandID
    const channel: string
    const payload: seq<byte>
    const idempotencyKey: IdempotencyKey
    const createdAt: Time
    var state: CommandState
    var attemptedAt: Time
    var completedAt: Time
    var retryCount: int
    var lastError: string

    /** The struct literal of `NewCommand`; the unset fields take Go's zero values. */
    constructor (id: BotCommandID, channel: string, payload: seq<byte>, key: IdempotencyKey, now: Time)
      ensures this.id == id && this.channel == channel && this.payload == payload
      ensures idempotencyKey == key && createdAt == now
      ensures state == CommandStatePending && retryCount == 0 && lastError == ""
      ensures IsZero(attemptedAt) && IsZero(completedAt)
    {
      this.id, this.channel, this.payload, idempotencyKey := id, channel, payload, key;
      state := CommandStatePending;
      attemptedAt, completedAt := ZeroTime, ZeroTime;
      retryCount, lastError := 0, "";
      createdAt := now;
    }

    /** `NewCommand`: an error exactly when a check fails; otherwise a fresh pending
        command with no retries and no error, created at `now`. */
    static method NewCommand(id: BotCommandID, channel: string, payload: seq<byte>, key: IdempotencyKey, now: Time)
      returns (r: Result<Command, Error>)
      ensures var check := CheckNewCommand(id, key);
              (r.Failure? <==> check.Fail?) && (r.Failure? ==> r.error == check.error)
      ensures r.Success? ==> fresh(r.value) && r.value.id == id && r.value.channel == channel
                             && r.value.payload == payload && r.value.idempotencyKey == key
                             && r.value.createdAt == now && r.value.state == CommandStatePending
                             && r.value.retryCount == 0 && r.value.lastError == ""
                             && IsZero(r.value.attemptedAt) && IsZero(r.value.completedAt)
    {
      var check := CheckNewCommand(id, key);
      if check.Fail? {
        return Failure(check.error);
      }
      var c := new Command(id, channel, payload, key, now);
      return Success(c);
    }

    /** `MarkAttempt`: with an error the command fails, one more retry is counted and the
        error text is kept, the completion time untouched; without one it completes at
        `now` and the error text is cleared. The retry count never decreases. */
    method MarkAttempt(now: Time, err: Option<Error>)
      modifies this
      ensures attemptedAt == now
      ensures err.Some? ==> state == CommandStateFailed && retryCount == old(retryCount) + 1
                            && lastError == ErrorText(err.value) && completedAt == old(completedAt)
      ensures err.None? ==> state == CommandStateCompleted && completedAt == now
                            && lastError == "" && retryCount == old(retryCount)
      ensures retryCount >= old(retryCount)
    {
      attemptedAt := now;
      if err.Some? {
        retryCount := retryCount + 1;
        state := CommandStateFailed;
        lastError := ErrorText(err.value);
        return;
      }
      state := CommandStateCompleted;
      completedAt := now;
      lastError := "";
    }
  }
}

=== FILE: errors.dfy ===
/** The error values of the core: one constructor per sentinel variable of the
    `errors.go` files, plus the ad-hoc `errors.New` messages and the runtime's
    bad-input error. Errors returned by collaborators are any of these values. */
module Errors {

  datatype Error =
    // src/domain/shared/errors.go
    | Duplicate | NotFound | Conflict | InvalidState
    // src/domain/tournament/errors.go
    | TournamentNotFound | TournamentAlreadyExists | TournamentAlreadyEnded
    | ParticipantNotFound | ParticipantAlreadyJoined | TournamentFull | InvalidAttemptCount
    // src/domain/battle/errors.go
    | PlayerAlreadyJoined | PlayerNotFound
    // src/domain/player/errors.go
    | EmailRequired | AccountSuspended | DeviceInvalid
    // src/domain/analytics/errors.go
    | SessionNotFound | SessionAlreadyEnded | InvalidEvent | DispatchFailed
    // src/domain/group/errors.go
    | NameRequired | MemberNotFound
    // an `errors.New(text)` made at its call site
    | Msg(text: string)
    // the Nakama runtime's `runtime.BadInputError(text, nil)`
    | BadInput(text: string)

  /** `err.Error()`: the text each error carries. */
  function ErrorText(e: Error): string
  {
    match e
    case Duplicate => "duplicate operation"
    case NotFound => "entity not found"
    case Conflict => "entity conflict"
    case InvalidState => "invalid state transition"
    case TournamentNotFound => "tournament not found"
    case TournamentAlreadyExists => "tournament already exists"
    case TournamentAlreadyEnded => "tournament already ended"
    case ParticipantNotFound => "participant not found"
    case ParticipantAlreadyJoined => "participant already joined"
    case TournamentFull => "tournament is full"
    case InvalidAttemptCount => "invalid attempt count"
    case PlayerAlreadyJoined => "player already joined battle"
    case PlayerNotFound => "player not in battle"
    case EmailRequired => "player email is required"
    case AccountSuspended => "player account suspended"
    case DeviceInvalid => "device fingerprint invalid"
    case SessionNotFound => "session not found"
    case SessionAlreadyEnded => "session already ended"
    case InvalidEvent => "invalid event"
    case DispatchFailed => "failed to dispatch events"
    case NameRequired => "group name required"
    case MemberNotFound => "group member not found"
    case Msg(text) => text
    case BadInput(text) => text
  }
}

=== FILE: event.dfy ===
/** The analytics Event aggregate of src/domain/analytics/event.go. */
module EventDomain {
  import opened Wrappers
  import opened Clock
  import opened Errors
  import opened Ids

  /** Event types and names are open strings in Go; these are its constants. */
  type EventType = string
  type EventName = string
  const EventTypeIdentify: EventType := "identify"
  const EventTypeTrack: EventType := "track"
  const EventNameStart: EventName := "start"
  const EventNameEnd: EventName := "end"

  datatype LibraryInfo = LibraryInfo(name: string, version: string)
  /** Metadata attached to every event. */
  datatype Context = Context(direct: bool, library: LibraryInfo)
  datatype AppInfo = AppInfo(name: string, version: string)
  datatype OSInfo = OSInfo(name: string, version: string)

  /** The checks of `NewIdentifyEvent`: the user identifier, then a non-zero timestamp. */
  function CheckNewIdentifyEvent(userID: PlayerID, timestamp: Time): (r: Outcome<Error>)
    ensures r.Pass? <==> !IsBlank(userID) && !IsZero(timestamp)
    ensures !IsBlank(userID) && IsZero(timestamp) ==> r == Fail(Msg("timestamp cannot be zero"))
  {
    if Validate(PlayerId, userID).Fail? then Validate(PlayerId, userID)
    else if IsZero(timestamp) then Fail(Msg("timestamp cannot be zero"))
    else Pass
  }

  /** The checks of `NewTrackEvent`: the user identifier, a non-empty name, then a
      non-zero timestamp. */
  function CheckNewTrackEvent(userID: PlayerID, name: EventName, timestamp: Time): (r: Outcome<Error>)
    ensures r.Pass? <==> !IsBlank(userID) && name != "" && !IsZero(timestamp)
    ensures !IsBlank(userID) && name == "" ==> r == Fail(Msg("event name cannot be empty"))
    ensures !IsBlank(userID) && name != "" && IsZero(timestamp) ==> r == Fail(Msg("timestamp cannot be zero"))
  {
    if Validate(PlayerId, userID).Fail? then Validate(PlayerId, userID)
    else if name == "" then Fail(Msg("event name cannot be empty"))
    else if IsZero(timestamp) then Fail(Msg("timestamp cannot be zero"))
    else Pass
  }

  /** The rules of `Event.Validate` over an event's fields: a type is required, then a
      valid user, then a name for track events, then a non-zero timestamp. */
  function ValidateFields(eventType: EventType, userID: PlayerID, name: EventName, timestamp: Time): (r: Outcome<Error>)
    ensures r.Pass? <==> eventType != "" && !IsBlank(userID)
                         && !(eventType == EventTypeTrack && name == "") && !IsZero(timestamp)
    ensures eventType == "" ==> r == Fail(Msg("event type is required"))
    ensures eventType == EventTypeTrack && name == "" && !IsBlank(userID)
            ==> r == Fail(Msg("track events require a name"))
    ensures eventType != "" && !IsBlank(userID) && !(eventType == EventTypeTrack && name == "") && IsZero(timestamp)
            ==> r == Fail(Msg("timestamp is required"))
  {
    if eventType == "" then Fail(Msg("event type is required"))
    else if Validate(PlayerId, userID).Fail? then Validate(PlayerId, userID)
    else if eventType == EventTypeTrack && name == "" then Fail(Msg("track events require a name"))
    else if IsZero(timestamp) then Fail(Msg("timestamp is required"))
    else Pass
  }

  /** Whatever either event constructor accepts, `Validate` accepts too: the
      constructors' checks are at least as strict as the validation rules. */
  lemma ConstructedEventsValidate(userID: PlayerID, name: EventName, timestamp: Time)
    ensures CheckNewIdentifyEvent(userID, timestamp).Pass? ==> ValidateFields(EventTypeIdentify, userID, "", timestamp).Pass?
    ensures CheckNewTrackEvent(userID, name, timestamp).Pass? ==> ValidateFields(EventTypeTrack, userID, name, timestamp).Pass?
    ensures ValidateFields(EventTypeTrack, userID, name, timestamp).Pass? ==> CheckNewTrackEvent(userID, name, timestamp).Pass?
  {
  }

  /** An analytics event; application and OS details are attached after construction. */
  class Event {
    const eventType: EventType
    const userID: PlayerID
    const name: EventName
    const context: Context
    const timestamp: Time
    var app: Option<AppInfo>
    var os: Option<OSInfo>

    /** The struct literals of both event constructors. */
    constructor (eventType: EventType, userID: PlayerID, name: EventName, context: Context, timestamp: Time)
      ensures this.eventType == eventType && this.userID == userID && this.name == name
      ensures this.context == context && this.timestamp == timestamp && app == None && os == None
    {
      this.eventType, this.userID, this.name, this.context, this.timestamp := eventType, userID, name, context, timestamp;
      app, os := None, None;
    }

    /** `NewIdentifyEvent`: an error exactly when a check fails; otherwise a fresh
        identify event without a name, which passes `Validate`. */
    static method NewIdentifyEvent(userID: PlayerID, ctx: Context, timestamp: Time) returns (r: Result<Event, Error>)
      ensures var check := CheckNewIdentifyEvent(userID, timestamp);
              (r.Failure? <==> check.Fail?) && (r.Failure? ==> r.error == check.error)
      ensures r.Success? ==> fresh(r.value) && r.value.eventType == EventTypeIdentify
                             && r.value.userID == userID && r.value.name == ""
                             && r.value.context == ctx && r.value.timestamp == timestamp
                             && r.value.app == None && r.value.os == None
                             && r.value.Validate().Pass?
    {
      var check := CheckNewIdentifyEvent(userID, timestamp);
      if check.Fail? {
        return Failure(check.error);
      }
      ConstructedEventsValidate(userID, "", timestamp);
      var e := new Event(EventTypeIdentify, userID, "", ctx, timestamp);
      return Success(e);
    }

    /** `NewTrackEvent`: an error exactly when a check fails; otherwise a fresh track
        event, which passes `Validate`. */
    static method NewTrackEvent(userID: PlayerID, name: EventName, ctx: Context, timestamp: Time) returns (r: Result<Event, Error>)
      ensures var check := CheckNewTrackEvent(userID, name, timestamp);
              (r.Failure? <==> check.Fail?) && (r.Failure? ==> r.error == check.error)
      ensures r.Success? ==> fresh(r.value) && r.value.eventType == EventTypeTrack
                             && r.value.userID == userID && r.value.name == name
                             && r.value.context == ctx && r.value.timestamp == timestamp
                             && r.value.app == None && r.value.os == None
                             && r.value.Validate().Pass?
    {
      var check := CheckNewTrackEvent(userID, name, timestamp);
      if check.Fail? {
        return Failure(check.error);
      }
      ConstructedEventsValidate(userID, name, timestamp);
      var e := new Event(EventTypeTrack, userID, name, ctx, timestamp);
      return Success(e);
    }

    /** `WithAppInfo`: replaces the application details and returns the same event. */
    method WithAppInfo(name: string, version: string) returns (e: Event)
      modifies this
      ensures e == this && app == Some(AppInfo(name, version)) && os == old(os)
    {
      app := Some(AppInfo(name, version));
      return this;
    }

    /** `WithOSInfo`: replaces the OS details and returns the same event. */
    method WithOSInfo(name: string, version: string) returns (e: Event)
      modifies this
      ensures e == this && os == Some(OSInfo(name, version)) && app == old(app)
    {
      os := Some(OSInfo(name, version));
      return this;
    }

    /** `Validate`: the field rules; attached details never affect it. */
    function Validate(): (r: Outcome<Error>)
      ensures r.Pass? <==> eventType != "" && !IsBlank(userID)
                           && !(eventType == EventTypeTrack && name == "") && !IsZero(timestamp)
    {
      ValidateFields(eventType, userID, name, timestamp)
    }
  }
}

=== FILE: group.dfy ===
/** The Group aggregate of src/domain/group/group.go. */
module GroupDomain {
  import opened Wrappers
  import opened Clock
  import opened Errors
  import opened Ids

  /** Roles are open strings in Go; these are its constants. */
  type Role = string
  const RoleOwner: Role := "owner"
  const RoleAdmin: Role := "admin"
  const RoleMember: Role := "member"

  datatype Membership = Membership(playerID: PlayerID, role: Role, joinedAt: Time)

  /** The checks of `NewGroup`, in Go's order: the group identifier, the owner,
      then a non-empty name. */
  function CheckNewGroup(id: GroupID, name: string, owner: PlayerID): (r: Outcome<Error>)
    ensures r.Pass? <==> !IsBlank(id) && !IsBlank(owner) && name != ""
    ensures IsBlank(id) ==> r == Fail(Msg(RequiredMessage(GroupId)))
    ensures !IsBlank(id) && IsBlank(owner) ==> r == Fail(Msg(RequiredMessage(PlayerId)))
    ensures !IsBlank(id) && !IsBlank(owner) && name == "" ==> r == Fail(NameRequired)
  {
    if Validate(GroupId, id).Fail? then Validate(GroupId, id)
    else if Validate(PlayerId, owner).Fail? then Validate(PlayerId, owner)
    else if name == "" then Fail(NameRequired)
    else Pass
  }

  /** A group with its memberships, keyed by player. */
  class Group {
    const id: GroupID
    const name: string
    const createdAt: Time
    var description: string
    var members: map<PlayerID, Membership>
    var updatedAt: Time

    /** Each membership is filed under its own player. */
    ghost predicate Valid()
      reads this
    {
      forall p :: p in members ==> members[p].playerID == p
    }

    /** The struct literal of `NewGroup` with the owner's membership. */
    constructor (id: GroupID, name: string, owner: PlayerID, now: Time)
      ensures this.id == id && this.name == name && description == ""
      ensures members == map[owner := Membership(owner, RoleOwner, now)]
      ensures createdAt == now && updatedAt == now && Valid()
    {
      this.id, this.name, description := id, name, "";
      members := map[owner := Membership(owner, RoleOwner, now)];
      createdAt, updatedAt := now, now;
    }

    /** `NewGroup`: an error exactly when a check fails; otherwise a fresh group whose
        only member is the owner, with the owner role, joined at `now`. */
    static method NewGroup(id: GroupID, name: string, owner: PlayerID, now: Time) returns (r: Result<Group, Error>)
      ensures var check := CheckNewGroup(id, name, owner);
              (r.Failure? <==> check.Fail?) && (r.Failure? ==> r.error == check.error)
      ensures r.Success? ==> fresh(r.value) && r.value.Valid() && r.value.id == id
                             && r.value.name == name && r.value.description == ""
                             && r.value.members == map[owner := Membership(owner, RoleOwner, now)]
                             && r.value.createdAt == now && r.value.updatedAt == now
    {
      var check := CheckNewGroup(id, name, owner);
      if check.Fail? {
        return Failure(check.error);
      }
      var g := new Group(id, name, owner, now);
      return Success(g);
    }

    /** `AssignRole`: refused with `ErrMemberNotFound` for a non-member, changing nothing;
        otherwise only that member's role changes (its join time is kept) and the
        membership set stays the same. */
    method AssignRole(player: PlayerID, role: Role, now: Time) returns (r: Outcome<Error>)
      modifies this
      ensures r.Pass? <==> player in old(members)
      ensures r.Fail? ==> r.error == MemberNotFound && unchanged(this)
      ensures r.Pass? ==> members == old(members)[player := old(members)[player].(role := role)]
                          && updatedAt == now
      ensures members.Keys == old(members).Keys && description == old(description)
      ensures old(Valid()) ==> Valid()
    {
      if player !in members {
        return Fail(MemberNotFound);
      }
      var member := members[player];
      member := member.(role := role);
      members := members[player := member];
      updatedAt := now;
      return Pass;
    }
  }
}

=== FILE: group_service.dfy ===
/** The group creation service of src/app/groups/service.go.

    The group repository is abstracted as a map held by the service; Nakama's answer to
    `CreateGroup` and whether the save fails are parameters, and `now` is the service
    clock's reading. */
module GroupService {
  import opened Wrappers
  import opened Clock
  import opened Errors
  import opened Ids
  import opened GroupDomain

  /** `CreateInput`. */
  datatype CreateInput = CreateInput(creatorID: PlayerID, name: string, description: string, open: bool,
                                     avatarURL: string, langTag: string)

  /** `CreateGroupPayload`: the fields sent to Nakama. */
  datatype CreateGroupPayload = CreateGroupPayload(name: string, description: string, creatorID: PlayerID,
                                                   avatarURL: string, langTag: string, open: bool)

  /** `CreateGroupResult` and `CreateOutput`, which carry the same two fields. */
  datatype CreateOutput = CreateOutput(groupID: GroupID, handle: string)

  datatype Call = ProviderCreate(payload: CreateGroupPayload) | Save(group: GroupID)

  /** The payload `CreateGroup` sends: the input's fields, unchecked. */
  function Payload(cmd: CreateInput): (p: CreateGroupPayload)
    ensures p.name == cmd.name && p.description == cmd.description && p.creatorID == cmd.creatorID
    ensures p.avatarURL == cmd.avatarURL && p.langTag == cmd.langTag && p.open == cmd.open
  {
    CreateGroupPayload(cmd.name, cmd.description, cmd.creatorID, cmd.avatarURL, cmd.langTag, cmd.open)
  }

  class Service {
    var groups: map<GroupID, Group>
    ghost var trace: seq<Call>

    constructor ()
      ensures groups == map[] && trace == []
    {
      groups, trace := map[], [];
    }

    /** `CreateGroup`: an invalid creator fails before Nakama is called. Otherwise Nakama
        creates the group before any local aggregate exists; its failure is returned with
        nothing saved, and its success is registered as a group. */
    method CreateGroup(cmd: CreateInput, now: Time, created: Result<CreateOutput, Error>, saveFault: Option<Error>)
      returns (r: Result<CreateOutput, Error>)
      modifies this
      ensures IsBlank(cmd.creatorID) ==> r == Failure(Msg(RequiredMessage(PlayerId))) && unchanged(this)
      ensures !IsBlank(cmd.creatorID) && created.Failure? ==>
                r == Failure(created.error) && trace == old(trace) + [ProviderCreate(Payload(cmd))] && groups == old(groups)
      ensures !IsBlank(cmd.creatorID) && created.Success? ==>
                Registered(cmd, now, created.value, saveFault, old(trace) + [ProviderCreate(Payload(cmd))], old(groups), r)
    {
      var creatorOk := Ids.Validate(PlayerId, cmd.creatorID);
      if creatorOk.Fail? {
        return Failure(creatorOk.error);
      }
      trace := trace + [ProviderCreate(Payload(cmd))];
      assert groups == old(groups);
      if created.Failure? {
        return Failure(created.error);
      }
      r := Register(cmd, now, created.value, saveFault);
    }

    /** What registering the group Nakama created leaves behind. The aggregate takes
        Nakama's group identifier with the creator as owner, so a blank identifier or an
        empty name (`ErrNameRequired`) is refused only now, after the remote group exists,
        and nothing is saved. The description is copied before the save; a failed save is
        returned, and on success the output is Nakama's identifier and handle and the group,
        carrying that identifier, created at `now` and whose only member is its owner, is
        stored under it. */
    ghost predicate Registered(cmd: CreateInput, now: Time, result: CreateOutput, saveFault: Option<Error>,
                               trace0: seq<Call>, groups0: map<GroupID, Group>, r: Result<CreateOutput, Error>)
      reads this, groups.Values
    {
      var id := result.groupID;
      var check := CheckNewGroup(id, cmd.name, cmd.creatorID);
      if check.Fail? then
        r == Failure(check.error) && trace == trace0 && groups == groups0
      else
        && trace == trace0 + [Save(id)]
        && (saveFault.Some? ==> r == Failure(saveFault.value) && groups == groups0)
        && (saveFault.None? ==>
              r == Success(result) && id in groups && groups == groups0[id := groups[id]]
              && groups[id].Valid() && groups[id].id == id && groups[id].name == cmd.name
              && groups[id].createdAt == now && groups[id].updatedAt == now
              && groups[id].description == cmd.description
              && groups[id].members == map[cmd.creatorID := Membership(cmd.creatorID, RoleOwner, now)])
    }

    method Register(cmd: CreateInput, now: Time, result: CreateOutput, saveFault: Option<Error>)
      returns (r: Result<CreateOutput, Error>)
      modifies this
      ensures Registered(cmd, now, result, saveFault, old(trace), old(groups), r)
    {
      ghost var check := CheckNewGroup(result.groupID, cmd.name, cmd.creatorID);
      var built := Group.NewGroup(result.groupID, cmd.name, cmd.creatorID, now);
      if built.Failure? {
        assert check == Fail(built.error);
        return Failure(built.error);
      }
      var aggregate := built.value;
      aggregate.description := cmd.description;
      assert aggregate.Valid();
      assert groups == old(groups) && trace == old(trace);
      var saved := Store(aggregate, saveFault);
      if saved.Fail? {
        return Failure(saved.error);
      }
      return Success(result);
    }

    /** The repository's `Save`: the group is stored under its identifier unless the save
        fails. */
    method Store(group: Group, saveFault: Option<Error>) returns (r: Outcome<Error>)
      modifies this
      ensures trace == old(trace) + [Save(group.id)]
      ensures r == (if saveFault.Some? then Fail(saveFault.value) else Pass)
      ensures groups == if saveFault.Some? then old(groups) else old(groups)[group.id := group]
    {
      trace := trace + [Save(group.id)];
      if saveFault.Some? {
        return Fail(saveFault.value);
      }
      groups := groups[group.id := group];
      return Pass;
    }
  }
}

=== FILE: ids.dfy ===
/** The typed identifiers of src/domain/shared/types.go and their `Validate` rule:
    an identifier is rejected exactly when it is blank after `strings.TrimSpace`. */
module Ids {
  import opened Wrappers
  import opened Errors

  type PlayerID = string
  type GroupID = string
  type BattleID = string
  type SeasonID = string
  type BotCommandID = string
  type IdempotencyKey = string
  /** Declared outside the modelled files; it follows the same rule as the others. */
  type TournamentID = string

  /** Which identifier type is validated; only the error text differs between them. */
  datatype IdKind = PlayerId | GroupId | BattleId | SeasonId | BotCommandId | IdempotencyKeyId | TournamentId

  function RequiredMessage(kind: IdKind): string
  {
    match kind
    case PlayerId => "player id is required"
    case GroupId => "group id is required"
    case BattleId => "battle id is required"
    case SeasonId => "season id is required"
    case BotCommandId => "bot command id is required"
    case IdempotencyKeyId => "idempotency key is required"
    case TournamentId => "tournament id is required"
  }

  /** Go's `unicode.IsSpace`: the Latin-1 spaces and the other Unicode White_Space characters. */
  predicate IsSpace(c: char)
  {
    c == ' ' || c == '\t' || c == '\n' || c == '\U{000B}' || c == '\U{000C}' || c == '\r'
    || c == '\U{0085}' || c == '\U{00A0}' || c == '\U{1680}'
    || ('\U{2000}' <= c <= '\U{200A}')
    || c == '\U{2028}' || c == '\U{2029}' || c == '\U{202F}' || c == '\U{205F}' || c == '\U{3000}'
  }

  /** Drops the leading white space. */
  function TrimLeft(s: string): (r: string)
    ensures |r| <= |s| && r == s[|s| - |r|..]
    ensures forall i :: 0 <= i < |s| - |r| ==> IsSpace(s[i])
    ensures r == [] || !IsSpace(r[0])
  {
    if s != [] && IsSpace(s[0]) then TrimLeft(s[1..]) else s
  }

  /** Drops the trailing white space. */
  function TrimRight(s: string): (r: string)
    ensures |r| <= |s| && r == s[..|r|]
    ensures forall i :: |r| <= i < |s| ==> IsSpace(s[i])
    ensures r == [] || !IsSpace(r[|r| - 1])
  {
    if s != [] && IsSpace(s[|s| - 1]) then TrimRight(s[..|s| - 1]) else s
  }

  /** `strings.TrimSpace`: empty exactly when every character is white space;
      otherwise it starts and ends with a character that is not. */
  function TrimSpace(s: string): (r: string)
    ensures r == [] <==> forall i :: 0 <= i < |s| ==> IsSpace(s[i])
    ensures r != [] ==> !IsSpace(r[0]) && !IsSpace(r[|r| - 1])
  {
    TrimRight(TrimLeft(s))
  }

  /** Blank after trimming: what every identifier type rejects. */
  predicate IsBlank(id: string)
  {
    TrimSpace(id) == []
  }

  /** `Validate` of PlayerID, GroupID, BattleID, SeasonID, BotCommandID, IdempotencyKey
      (and TournamentID): fails exactly when the identifier consists of white space only
      (the empty identifier included), with the type's own message; it never alters the value. */
  function Validate(kind: IdKind, id: string): (r: Outcome<Error>)
    ensures r.Fail? <==> forall i :: 0 <= i < |id| ==> IsSpace(id[i])
    ensures r.Fail? ==> r.error == Msg(RequiredMessage(kind))
  {
    if IsBlank(id) then Fail(Msg(RequiredMessage(kind))) else Pass
  }

  /** A white-space-only identifier is rejected; a non-blank one with surrounding
      white space is accepted as it is, without normalisation. */
  lemma ValidateOnPaddedIds(kind: IdKind, id: string)
    requires exists i :: 0 <= i < |id| && !IsSpace(id[i])
    ensures Validate(kind, "   ").Fail?
    ensures Validate(kind, " " + id + "\t").Pass?
  {
    var i :| 0 <= i < |id| && !IsSpace(id[i]);
    assert (" " + id + "\t")[i + 1] == id[i];
  }
}

=== FILE: leaderboard.dfy ===
/** Score submissions and seasons of src/domain/leaderboard/leaderboard.go. */
module LeaderboardDomain {
  import opened Wrappers
  import opened Clock
  import opened Errors
  import opened Ids

  /** An idempotent leaderboard write. */
  datatype ScoreSubmission = ScoreSubmission(
    playerID: PlayerID, seasonID: SeasonID, value: int, idempotencyKey: IdempotencyKey, submittedAt: Time)
  {
    /** `Validate`: the player, then the season, then the idempotency key must be
        non-blank; the first blank one decides the error. Value and time are not checked. */
    function Validate(): (r: Outcome<Error>)
      ensures r.Pass? <==> !IsBlank(playerID) && !IsBlank(seasonID) && !IsBlank(idempotencyKey)
      ensures IsBlank(playerID) ==> r == Fail(Msg(RequiredMessage(PlayerId)))
      ensures !IsBlank(playerID) && IsBlank(seasonID) ==> r == Fail(Msg(RequiredMessage(SeasonId)))
      ensures !IsBlank(playerID) && !IsBlank(seasonID) && IsBlank(idempotencyKey)
              ==> r == Fail(Msg(RequiredMessage(IdempotencyKeyId)))
    {
      if Ids.Validate(PlayerId, playerID).Fail? then Ids.Validate(PlayerId, playerID)
      else if Ids.Validate(SeasonId, seasonID).Fail? then Ids.Validate(SeasonId, seasonID)
      else Ids.Validate(IdempotencyKeyId, idempotencyKey)
    }
  }

  /** A leaderboard season and its activity flag. */
  class Season {
    const id: SeasonID
    const startsAt: Time
    const endsAt: Time
    var active: bool

    constructor (id: SeasonID, startsAt: Time, endsAt: Time)
      ensures this.id == id && this.startsAt == startsAt && this.endsAt == endsAt && !active
    {
      this.id, this.startsAt, this.endsAt := id, startsAt, endsAt;
      active := false;
    }

    /** `Activate`: the season becomes active exactly when `now` lies strictly between
        its start and its end, both bounds excluded. */
    method Activate(now: Time)
      modifies this
      ensures active <==> After(now, startsAt) && Before(now, endsAt)
      ensures active ==> startsAt < endsAt
    {
      active := After(now, startsAt) && Before(now, endsAt);
    }
  }
}

=== FILE: leaderboard_service.dfy ===
/** The score submission service of src/app/leaderboard/service.go. The repository's
    `SubmitScore` is recorded in the ghost `trace`; whether it fails is a parameter, and
    `now` is the service clock's reading. */
module LeaderboardService {
  import opened Wrappers
  import opened Clock
  import opened Errors
  import opened Ids
  import opened LeaderboardDomain

  /** `SubmitCommand`. */
  datatype SubmitCommand = SubmitCommand(playerID: PlayerID, seasonID: SeasonID, score: int, idempotencyKey: IdempotencyKey)

  /** `SubmitResult`. */
  datatype SubmitResult = SubmitResult(acknowledged: bool)

  datatype Call = SubmitScore(submission: ScoreSubmission)

  /** The submission `Submit` builds: the command's fields, stamped `now`. */
  function Submission(cmd: SubmitCommand, now: Time): (s: ScoreSubmission)
    ensures s.playerID == cmd.playerID && s.seasonID == cmd.seasonID && s.value == cmd.score
    ensures s.idempotencyKey == cmd.idempotencyKey && s.submittedAt == now
  {
    ScoreSubmission(cmd.playerID, cmd.seasonID, cmd.score, cmd.idempotencyKey, now)
  }

  class Service {
    ghost var trace: seq<Call>

    constructor ()
      ensures trace == []
    {
      trace := [];
    }

    /** `Submit`: a submission that fails validation is refused before the repository is
        called; otherwise it is submitted, a repository error is returned as it is, and
        success is acknowledged. The score itself is never checked. */
    method Submit(cmd: SubmitCommand, now: Time, submitFault: Option<Error>) returns (r: Result<SubmitResult, Error>)
      modifies this
      ensures var check := Submission(cmd, now).Validate();
              check.Fail? ==> r == Failure(check.error) && trace == old(trace)
      ensures Submission(cmd, now).Validate().Pass? ==>
                trace == old(trace) + [SubmitScore(Submission(cmd, now))]
                && r == (if submitFault.Some? then Failure(submitFault.value) else Success(SubmitResult(true)))
    {
      var submission := Submission(cmd, now);
      var valid := submission.Validate();
      if valid.Fail? {
        return Failure(valid.error);
      }
      trace := trace + [SubmitScore(submission)];
      if submitFault.Some? {
        return Failure(submitFault.value);
      }
      return Success(SubmitResult(true));
    }
  }

  /** Validation never looks at the score: two submissions that differ only in their
      score are accepted or refused alike. */
  lemma ScoreIsUnconstrained(cmd: SubmitCommand, now: Time, score: int)
    ensures Submission(cmd, now).Validate() == Submission(cmd.(score := score), now).Validate()
  {
  }
}

=== FILE: memory_repository.dfy ===
/** The in-memory tournament and participant stores of
    src/infra/tournament/memory_repository.go. The read/write locks are not modelled:
    every operation is one sequential step over the map. */
module TournamentMemory {
  import opened Wrappers
  import opened Errors
  import opened Ids
  import opened TournamentDomain
  import opened ParticipantDomain

  /** The stored tournaments `order` selects, from position `lo` up to `hi`. */
  ghost function Page(m: map<TournamentID, Tournament>, order: seq<TournamentID>, lo: int, hi: int): seq<Tournament>
    requires 0 <= lo <= hi <= |order|
    requires forall i :: 0 <= i < |order| ==> order[i] in m
  {
    seq(hi - lo, i requires 0 <= i < hi - lo => m[order[lo + i]])
  }

  /** `order` lists every key of `m` exactly once: one possible map iteration order. */
  ghost predicate IterationOrder<K, V>(m: map<K, V>, order: seq<K>)
  {
    (forall i :: 0 <= i < |order| ==> order[i] in m)
    && (forall k :: k in m ==> k in order)
    && (forall i, j :: 0 <= i < j < |order| ==> order[i] != order[j])
  }

  /** Tournaments keyed by identifier; the map holds references, so a caller that mutates a
      tournament it got back mutates the stored one. */
  class MemoryRepository {
    var tournaments: map<TournamentID, Tournament>

    /** `NewMemoryRepository`. */
    constructor ()
      ensures tournaments == map[]
    {
      tournaments := map[];
    }

    /** `Save`: stores `t` under its identifier, replacing any previous entry and leaving
        every other key as it was. It never fails. */
    method Save(t: Tournament)
      modifies this
      ensures tournaments == old(tournaments)[t.id := t]
    {
      tournaments := tournaments[t.id := t];
    }

    /** `Get`: the stored tournament, or `ErrTournamentNotFound` when there is none. */
    method Get(id: TournamentID) returns (r: Result<Tournament, Error>)
      ensures r.Success? <==> id in tournaments
      ensures r.Success? ==> r.value == tournaments[id]
      ensures r.Failure? ==> r.error == TournamentNotFound
    {
      if id !in tournaments {
        return Failure(TournamentNotFound);
      }
      return Success(tournaments[id]);
    }

    /** `Delete`: removes only `id`; deleting an absent identifier succeeds and changes
        nothing. */
    method Delete(id: TournamentID)
      modifies this
      ensures tournaments == old(tournaments) - {id}
      ensures id !in old(tournaments) ==> tournaments == old(tournaments)
    {
      tournaments := tournaments - {id};
    }

    /** `List`: collects the stored tournaments in the map's unspecified iteration order
        (returned as the ghost `order`), then returns the window of `limit` entries from
        `offset`, cut short at the end, or nothing when `offset` lies past the end.
        A negative offset, or a negative limit with an offset inside the list, makes
        Go panic on the slice bounds; callers never pass those. */
    method List(limit: int, offset: int) returns (r: seq<Tournament>, ghost order: seq<TournamentID>)
      requires offset >= 0
      requires offset <= |tournaments| ==> limit >= 0
      ensures IterationOrder(tournaments, order) && |order| == |tournaments|
      ensures offset > |tournaments| ==> r == []
      ensures offset <= |tournaments| ==>
                |r| == (if offset + limit <= |tournaments| then limit else |tournaments| - offset)
                && r == Page(tournaments, order, offset, offset + |r|)
      ensures forall i :: 0 <= i < |r| ==> r[i] in tournaments.Values
    {
      var all: seq<Tournament> := [];
      order := [];
      var rest := tournaments.Keys;
      while rest != {}
        invariant rest <= tournaments.Keys
        invariant |all| == |order|
        invariant forall i :: 0 <= i < |order| ==> order[i] in tournaments && order[i] !in rest
                                                    && all[i] == tournaments[order[i]]
        invariant forall k :: k in tournaments ==> k in rest || k in order
        invariant forall i, j :: 0 <= i < j < |order| ==> order[i] != order[j]
        invariant |order| + |rest| == |tournaments|
        decreases |rest|
      {
        var k :| k in rest;
        all := all + [tournaments[k]];
        order := order + [k];
        rest := rest - {k};
      }
      var start := offset;
      if start > |all| {
        return [], order;
      }
      var end := start + limit;
      if end > |all| {
        end := |all|;
      }
      r := all[start..end];
      forall i | 0 <= i < |r|
        ensures r[i] in tournaments.Values
      {
        assert r[i] == tournaments[order[start + i]];
      }
    }
  }

  /** `makeKey`: the composite participant key, the tournament identifier and the player
      identifier joined by a colon. */
  function MakeKey(tournamentID: TournamentID, playerID: PlayerID): (k: string)
    ensures |k| == |tournamentID| + 1 + |playerID|
    ensures k[..|tournamentID|] == tournamentID && k[|tournamentID|] == ':'
    ensures k[|tournamentID| + 1..] == playerID
  {
    tournamentID + ":" + playerID
  }

  /** Distinct pairs get distinct keys as long as no tournament identifier contains a
      colon: the first colon of a key then marks where the tournament identifier ends. */
  lemma MakeKeyInjective(t1: TournamentID, p1: PlayerID, t2: TournamentID, p2: PlayerID)
    requires ':' !in t1 && ':' !in t2
    requires MakeKey(t1, p1) == MakeKey(t2, p2)
    ensures t1 == t2 && p1 == p2
  {
  }

  /** Without that condition the key collides: tournament "a:b" with player "c" and
      tournament "a" with player "b:c" share the key "a:b:c", so one participant
      silently overwrites the other. */
  lemma MakeKeyCollision()
    ensures MakeKey("a:b", "c") == MakeKey("a", "b:c")
    ensures ("a:b", "c") != ("a", "b:c")
  {
  }

  /** Participants keyed by `MakeKey` of their tournament and player. */
  class MemoryParticipantRepository {
    var participants: map<string, Participant>

    /** `NewMemoryParticipantRepository`. */
    constructor ()
      ensures participants == map[]
    {
      participants := map[];
    }

    /** `Save`: stores `p` under the key of its own tournament and player, replacing any
        previous entry (including one of another pair with a colliding key). */
    method Save(p: Participant)
      modifies this
      ensures participants == old(participants)[MakeKey(p.tournamentID, p.playerID) := p]
    {
      var key := MakeKey(p.tournamentID, p.playerID);
      participants := participants[key := p];
    }

    /** `Get`: the participant stored under the pair's key, or `ErrParticipantNotFound`. */
    method Get(tournamentID: TournamentID, playerID: PlayerID) returns (r: Result<Participant, Error>)
      ensures r.Success? <==> MakeKey(tournamentID, playerID) in participants
      ensures r.Success? ==> r.value == participants[MakeKey(tournamentID, playerID)]
      ensures r.Failure? ==> r.error == ParticipantNotFound
    {
      var key := MakeKey(tournamentID, playerID);
      if key !in participants {
        return Failure(ParticipantNotFound);
      }
      return Success(participants[key]);
    }

    /** `ListByTournament`: exactly the stored participants of `tournamentID`, each once,
        in the map's unspecified iteration order (the keys are returned as the ghost
        `order`). */
    method ListByTournament(tournamentID: TournamentID) returns (r: seq<Participant>, ghost order: seq<string>)
      ensures |r| == |order|
      ensures forall i :: 0 <= i < |order| ==> order[i] in participants && r[i] == participants[order[i]]
      ensures forall i :: 0 <= i < |r| ==> r[i].tournamentID == tournamentID
      ensures forall k :: k in participants && participants[k].tournamentID == tournamentID ==> k in order
      ensures forall i, j :: 0 <= i < j < |order| ==> order[i] != order[j]
    {
      r, order := [], [];
      var rest := participants.Keys;
      while rest != {}
        invariant rest <= participants.Keys
        invariant |r| == |order|
        invariant forall i :: 0 <= i < |order| ==> order[i] in participants && order[i] !in rest
                                                    && r[i] == participants[order[i]]
        invariant forall i :: 0 <= i < |r| ==> r[i].tournamentID == tournamentID
        invariant forall k :: k in participants && participants[k].tournamentID == tournamentID ==>
                                k in rest || k in order
        invariant forall i, j :: 0 <= i < j < |order| ==> order[i] != order[j]
        decreases |rest|
      {
        var k :| k in rest;
        var p := participants[k];
        if p.tournamentID == tournamentID {
          r := r + [p];
          order := order + [k];
        }
        rest := rest - {k};
      }
    }

    /** `Delete`: removes only the pair's key; an absent key is a no-op. */
    method Delete(tournamentID: TournamentID, playerID: PlayerID)
      modifies this
      ensures participants == old(participants) - {MakeKey(tournamentID, playerID)}
    {
      var key := MakeKey(tournamentID, playerID);
      participants := participants - {key};
    }
  }
}

=== FILE: memory_session_repository.dfy ===
/** The in-memory session store of src/infra/analytics/memory_session_repository.go,
    one session per user. */
module SessionMemory {
  import opened Wrappers
  import opened Errors
  import opened Ids
  import opened SessionDomain

  class MemorySessionRepository {
    var sessions: map<PlayerID, Session>

    /** `NewMemorySessionRepository`. */
    constructor ()
      ensures sessions == map[]
    {
      sessions := map[];
    }

    /** `Save`: stores the session under its user, replacing that user's previous one and
        leaving every other user's as it was. */
    method Save(session: Session)
      modifies this
      ensures sessions == old(sessions)[session.userID := session]
    {
      sessions := sessions[session.userID := session];
    }

    /** `Get`: the user's session, or `ErrSessionNotFound`. */
    method Get(userID: PlayerID) returns (r: Result<Session, Error>)
      ensures r.Success? <==> userID in sessions
      ensures r.Success? ==> r.value == sessions[userID]
      ensures r.Failure? ==> r.error == SessionNotFound
    {
      if userID !in sessions {
        return Failure(SessionNotFound);
      }
      return Success(sessions[userID]);
    }

    /** `Delete`: removes only that user; an absent user is a no-op. */
    method Delete(userID: PlayerID)
      modifies this
      ensures sessions == old(sessions) - {userID}
      ensures userID !in old(sessions) ==> sessions == old(sessions)
    {
      sessions := sessions - {userID};
    }
  }
}

=== FILE: participant.dfy ===
/** The Participant aggregate of src/domain/tournament/participant.go. */
module ParticipantDomain {
  import opened Wrappers
  import opened Clock
  import opened Errors
  import opened Ids

  /** The checks of `NewParticipant`: it fails exactly when an identifier is blank or the
      join time is the zero time, reporting the tournament identifier first. */
  function CheckNewParticipant(tournamentID: TournamentID, playerID: PlayerID, joinedAt: Time): (r: Outcome<Error>)
    ensures r.Pass? <==> !IsBlank(tournamentID) && !IsBlank(playerID) && !IsZero(joinedAt)
    ensures IsBlank(tournamentID) ==> r == Fail(Msg(RequiredMessage(TournamentId)))
    ensures !IsBlank(tournamentID) && IsBlank(playerID) ==> r == Fail(Msg(RequiredMessage(PlayerId)))
    ensures !IsBlank(tournamentID) && !IsBlank(playerID) && IsZero(joinedAt)
            ==> r == Fail(Msg("joined time is required"))
  {
    if Validate(TournamentId, tournamentID).Fail? then Validate(TournamentId, tournamentID)
    else if Validate(PlayerId, playerID).Fail? then Validate(PlayerId, playerID)
    else if IsZero(joinedAt) then Fail(Msg("joined time is required"))
    else Pass
  }

  /** A player in a tournament, with an additive attempt counter. */
  class Participant {
    const tournamentID: TournamentID
    const playerID: PlayerID
    const joinedAt: Time
    var attempts: int
    var updatedAt: Time

    /** The counter is never negative. */
    ghost predicate Valid()
      reads this
    {
      attempts >= 0
    }

    /** The struct literal of `NewParticipant`. */
    constructor (tournamentID: TournamentID, playerID: PlayerID, joinedAt: Time)
      ensures this.tournamentID == tournamentID && this.playerID == playerID
      ensures attempts == 0 && this.joinedAt == joinedAt && updatedAt == joinedAt
      ensures Valid()
    {
      this.tournamentID, this.playerID := tournamentID, playerID;
      attempts := 0;
      this.joinedAt, updatedAt := joinedAt, joinedAt;
    }

    /** `NewParticipant`: an error exactly when a check fails; otherwise a fresh participant
        with no attempts, joined and updated at `joinedAt`. */
    static method NewParticipant(tournamentID: TournamentID, playerID: PlayerID, joinedAt: Time)
      returns (r: Result<Participant, Error>)
      ensures var check := CheckNewParticipant(tournamentID, playerID, joinedAt);
              (r.Failure? <==> check.Fail?) && (r.Failure? ==> r.error == check.error)
      ensures r.Success? ==> fresh(r.value) && r.value.Valid()
      ensures r.Success? ==> r.value.tournamentID == tournamentID && r.value.playerID == playerID
                             && r.value.attempts == 0 && r.value.joinedAt == joinedAt
                             && r.value.updatedAt == joinedAt
    {
      var check := CheckNewParticipant(tournamentID, playerID, joinedAt);
      if check.Fail? {
        return Failure(check.error);
      }
      var p := new Participant(tournamentID, playerID, joinedAt);
      return Success(p);
    }

    /** `AddAttempts`: a non-positive count is refused and changes nothing; a positive one
        increases the counter by exactly `count`. The counter never decreases. */
    method AddAttempts(count: int, now: Time) returns (r: Outcome<Error>)
      modifies this
      ensures r.Fail? <==> count <= 0
      ensures r.Fail? ==> r == Fail(Msg("attempt count must be positive")) && unchanged(this)
      ensures r.Pass? ==> attempts == old(attempts) + count && updatedAt == now
      ensures attempts >= old(attempts)
      ensures old(Valid()) ==> Valid()
    {
      if count <= 0 {
        return Fail(Msg("attempt count must be positive"));
      }
      attempts := attempts + count;
      updatedAt := now;
      return Pass;
    }

    /** `ResetAttempts`: always succeeds and brings the counter back to zero. */
    method ResetAttempts(now: Time)
      modifies this
      ensures attempts == 0 && updatedAt == now
      ensures Valid()
    {
      attempts := 0;
      updatedAt := now;
    }
  }
}

=== FILE: runtime_module.dfy ===
/** The Nakama runtime extension of src/infra/runtime/sandai_module.go: the two request
    hooks and the authoritative battle match handler. Logging, registration with Nakama
    and message broadcasting are effects outside the model; the broadcasts are returned
    instead. */
module SandaiRuntime {
  import opened Wrappers
  import opened Errors
  import opened Bytes

  /** The account part of `AuthenticateDeviceRequest`. */
  datatype AccountDevice = AccountDevice(id: string)
  datatype AuthenticateDeviceRequest = AuthenticateDeviceRequest(account: Option<AccountDevice>, create: bool, username: string)

  /** The record part of `WriteLeaderboardRecordRequest`. */
  datatype LeaderboardRecordWrite = LeaderboardRecordWrite(score: int, subscore: int, metadata: string)
  datatype WriteLeaderboardRecordRequest = WriteLeaderboardRecordRequest(leaderboardID: string, record: Option<LeaderboardRecordWrite>)

  /** `beforeAuthenticateDevice`: a request without an account or with an empty device
      identifier is refused as bad input; any other passes through unchanged. */
  function BeforeAuthenticateDevice(request: AuthenticateDeviceRequest): (r: Result<AuthenticateDeviceRequest, Error>)
    ensures r.Failure? <==> request.account.None? || request.account.value.id == ""
    ensures r.Failure? ==> r.error == BadInput("device id required")
    ensures r.Success? ==> r.value == request
  {
    if request.account.None? || request.account.value.id == "" then Failure(BadInput("device id required"))
    else Success(request)
  }

  /** `beforeWriteLeaderboardRecord`: a request without a record is refused as bad input.
      A record without metadata gets `stamp`, the serialised validation time, as its
      metadata; a record with metadata passes through unchanged. */
  function BeforeWriteLeaderboardRecord(request: WriteLeaderboardRecordRequest, stamp: string)
    : (r: Result<WriteLeaderboardRecordRequest, Error>)
    ensures r.Failure? <==> request.record.None?
    ensures r.Failure? ==> r.error == BadInput("missing leaderboard record")
    ensures r.Success? && request.record.value.metadata != "" ==> r.value == request
    ensures r.Success? && request.record.value.metadata == "" ==>
              r.value.leaderboardID == request.leaderboardID && r.value.record.Some?
              && r.value.record.value.metadata == stamp
              && r.value.record.value.score == request.record.value.score
              && r.value.record.value.subscore == request.record.value.subscore
  {
    if request.record.None? then Failure(BadInput("missing leaderboard record"))
    else if request.record.value.metadata == "" then
      Success(request.(record := Some(request.record.value.(metadata := stamp))))
    else Success(request)
  }

  /** A connected session's presence; the match keys players by session identifier. */
  datatype Presence = Presence(userID: string, sessionID: string, username: string, node: string)

  /** `matchState`: the last tick seen and the players present. */
  class MatchState {
    var tick: int
    var players: map<string, Presence>

    constructor ()
      ensures tick == 0 && players == map[]
    {
      tick, players := 0, map[];
    }
  }

  const TickRate: int := 10
  const Label: string := "sandai"
  /** Ticks after which an empty match ends. */
  const IdleTicks: int := 30

  /** `MatchInit`: a fresh state at tick zero with no players, ticking ten times a second
      under the label "sandai". */
  method MatchInit() returns (state: MatchState, tickRate: int, matchLabel: string)
    ensures fresh(state) && state.tick == 0 && state.players == map[]
    ensures tickRate == 10 && matchLabel == "sandai"
  {
    state := new MatchState();
    return state, TickRate, Label;
  }

  /** `MatchJoinAttempt`: every join is accepted, without a reason, and the state is
      unchanged. */
  method MatchJoinAttempt(state: MatchState, presence: Presence) returns (next: MatchState, accepted: bool, reason: string)
    ensures next == state && accepted && reason == ""
  {
    return state, true, "";
  }

  /** The players after `presences` join: each presence is stored under its session
      identifier, a later presence replacing an earlier one with the same session. */
  function Joined(players: map<string, Presence>, presences: seq<Presence>): map<string, Presence>
  {
    if presences == [] then players
    else
      var last := presences[|presences| - 1];
      Joined(players, presences[..|presences| - 1])[last.sessionID := last]
  }

  /** Who is present after a join: exactly the earlier players and the joining sessions;
      each joining session maps to its last presence in the list, and every other player
      keeps its entry. */
  lemma {:induction false} JoinedPlayers(players: map<string, Presence>, presences: seq<Presence>)
    ensures forall s :: s in Joined(players, presences) <==>
              s in players || exists i :: 0 <= i < |presences| && presences[i].sessionID == s
    ensures forall i :: 0 <= i < |presences| && (forall j :: i < j < |presences| ==> presences[j].sessionID != presences[i].sessionID)
              ==> Joined(players, presences)[presences[i].sessionID] == presences[i]
    ensures forall s :: s in players && (forall i :: 0 <= i < |presences| ==> presences[i].sessionID != s)
              ==> Joined(players, presences)[s] == players[s]
  {
    if presences != [] {
      var init := presences[..|presences| - 1];
      JoinedPlayers(players, init);
      assert forall i :: 0 <= i < |init| ==> init[i] == presences[i];
    }
  }

  /** `MatchJoin`: stores every joining presence under its session identifier, in order,
      and returns the same state. */
  method MatchJoin(state: MatchState, presences: seq<Presence>) returns (next: MatchState)
    modifies state
    ensures next == state && state.tick == old(state.tick)
    ensures state.players == Joined(old(state.players), presences)
  {
    for i := 0 to |presences|
      invariant state.tick == old(state.tick)
      invariant state.players == Joined(old(state.players), presences[..i])
    {
      assert presences[..i + 1][..i] == presences[..i];
      state.players := state.players[presences[i].sessionID := presences[i]];
    }
    assert presences[..|presences|] == presences;
    return state;
  }

  /** The session identifiers of `presences`. */
  function Sessions(presences: seq<Presence>): (ids: set<string>)
    ensures forall s :: s in ids <==> exists i :: 0 <= i < |presences| && presences[i].sessionID == s
  {
    set i | 0 <= i < |presences| :: presences[i].sessionID
  }

  /** `MatchLeave`: removes every leaving session and no other entry, and returns the
      same state. */
  method MatchLeave(state: MatchState, presences: seq<Presence>) returns (next: MatchState)
    modifies state
    ensures next == state && state.tick == old(state.tick)
    ensures state.players == old(state.players) - Sessions(presences)
  {
    for i := 0 to |presences|
      invariant state.tick == old(state.tick)
      invariant state.players == old(state.players) - Sessions(presences[..i])
    {
      assert Sessions(presences[..i + 1]) == Sessions(presences[..i]) + {presences[i].sessionID} by {
        assert forall k :: 0 <= k < i ==> presences[..i + 1][k] == presences[..i][k];
        assert presences[..i + 1][i] == presences[i];
      }
      state.players := state.players - {presences[i].sessionID};
    }
    assert presences[..|presences|] == presences;
    return state;
  }

  /** Whether `MatchLoop` ends the match: nobody is present and the tick is past 30. */
  predicate Ends(players: map<string, Presence>, tick: int)
  {
    |players| == 0 && tick > IdleTicks
  }

  /** `MatchLoop`: records the tick, broadcasts every message's data in order, and ends
      the match (returns nil) exactly when nobody is present and the tick is past 30;
      otherwise it returns the same state. */
  method MatchLoop(state: MatchState, tick: int, messages: seq<seq<byte>>)
    returns (next: Option<MatchState>, broadcasts: seq<seq<byte>>)
    modifies state
    ensures state.tick == tick && state.players == old(state.players)
    ensures broadcasts == messages
    ensures next.None? <==> Ends(state.players, tick)
    ensures next.Some? ==> next.value == state
  {
    state.tick := tick;
    broadcasts := [];
    for i := 0 to |messages|
      invariant broadcasts == messages[..i]
    {
      broadcasts := broadcasts + [messages[i]];
    }
    assert messages[..|messages|] == messages;
    if |state.players| == 0 && tick > IdleTicks {
      return None, broadcasts;
    }
    return Some(state), broadcasts;
  }

  /** How joins and leaves decide the end of a match: once every session present after
      the joins has left, the match ends exactly when the tick is past 30; while a joiner
      that has not left is present, it never ends. */
  lemma {:induction false} EndsAfterEveryoneLeaves(players: map<string, Presence>, joiners: seq<Presence>,
                                                   leavers: seq<Presence>, tick: int)
    ensures Joined(players, joiners).Keys <= Sessions(leavers) ==>
              (Ends(Joined(players, joiners) - Sessions(leavers), tick) <==> tick > IdleTicks)
    ensures (exists i :: 0 <= i < |joiners| && joiners[i].sessionID !in Sessions(leavers)) ==>
              !Ends(Joined(players, joiners) - Sessions(leavers), tick)
  {
    var present := Joined(players, joiners);
    var left := present - Sessions(leavers);
    if present.Keys <= Sessions(leavers) {
      assert left.Keys == {};
      assert left == map[];
    }
    if exists i :: 0 <= i < |joiners| && joiners[i].sessionID !in Sessions(leavers) {
      var i :| 0 <= i < |joiners| && joiners[i].sessionID !in Sessions(leavers);
      JoinedPlayers(players, joiners);
      assert joiners[i].sessionID in left;
      assert left != map[];
    }
  }

}

=== FILE: segment_dispatcher.dfy ===
/** The Segment batch builder of src/infra/analytics/segment_dispatcher.go. Serialising
    the batch and the HTTP exchange are not modelled: `Dispatch` returns the batch it
    would post, and the response's status code is a parameter. */
module SegmentDispatcher {
  import opened Wrappers
  import opened Errors
  import opened EventDomain

  const DefaultBaseURL: string := "https://api.segment.io/v1/batch"

  /** `SegmentDispatcher` without its HTTP client. */
  datatype Dispatcher = Dispatcher(apiKey: string, baseURL: string)

  /** One event in Segment's wire format; `event` is Go's empty string when omitted. */
  datatype SegmentEvent = SegmentEvent(eventType: string, userID: string, event: string, context: Context,
                                       app: Option<AppInfo>, os: Option<OSInfo>)

  /** `NewSegmentDispatcher`: an empty base URL selects Segment's batch endpoint. */
  function NewSegmentDispatcher(apiKey: string, baseURL: string): (d: Dispatcher)
    ensures d.apiKey == apiKey
    ensures baseURL == "" ==> d.baseURL == DefaultBaseURL
    ensures baseURL != "" ==> d.baseURL == baseURL
  {
    Dispatcher(apiKey, if baseURL == "" then DefaultBaseURL else baseURL)
  }

  /** The translation of one event: type, user and context always; the event name only
      for track events; application and OS details only when present. */
  function Translate(e: Event): SegmentEvent
    reads e
  {
    SegmentEvent(e.eventType, e.userID, if e.eventType == EventTypeTrack then e.name else "", e.context, e.app, e.os)
  }

  /** The translations of `events`, in order. */
  function Translated(events: seq<Event>): (batch: seq<SegmentEvent>)
    reads set i | 0 <= i < |events| :: events[i]
    ensures |batch| == |events|
  {
    if events == [] then []
    else Translated(events[..|events| - 1]) + [Translate(events[|events| - 1])]
  }

  /** The first validation failure among `events`, in order, or `Pass` when all are
      valid: the first failure of all but the last event, or else the last event's. */
  function FirstInvalid(events: seq<Event>): Outcome<Error>
  {
    if events == [] then Pass
    else if FirstInvalid(events[..|events| - 1]).Fail? then FirstInvalid(events[..|events| - 1])
    else events[|events| - 1].Validate()
  }

  /** A failure reported by `FirstInvalid` is the failure of the event at position `k`,
      before which every event is valid. */
  lemma {:induction false} FirstInvalidIsFirst(events: seq<Event>) returns (k: nat)
    requires FirstInvalid(events).Fail?
    ensures k < |events| && events[k].Validate() == FirstInvalid(events) && FirstInvalid(events[..k]).Pass?
  {
    var init := events[..|events| - 1];
    if FirstInvalid(init).Fail? {
      k := FirstInvalidIsFirst(init);
      assert events[k] == init[k] && events[..k] == init[..k];
    } else {
      k := |events| - 1;
    }
  }

  /** When `FirstInvalid` passes, the event at position `k` is valid. */
  lemma {:induction false} FirstInvalidPassAt(events: seq<Event>, k: nat)
    requires FirstInvalid(events).Pass? && k < |events|
    ensures events[k].Validate().Pass?
  {
    var init := events[..|events| - 1];
    if k < |init| {
      FirstInvalidPassAt(init, k);
      assert init[k] == events[k];
    }
  }

  /** `FirstInvalid` passes exactly when every event is valid. */
  lemma FirstInvalidPasses(events: seq<Event>)
    ensures FirstInvalid(events).Pass? <==> forall k :: 0 <= k < |events| ==> events[k].Validate().Pass?
  {
    if FirstInvalid(events).Fail? {
      var k := FirstInvalidIsFirst(events);
      assert events[k].Validate().Fail?;
    } else {
      forall k | 0 <= k < |events|
        ensures events[k].Validate().Pass?
      {
        FirstInvalidPassAt(events, k);
      }
    }
  }

  /** A prefix that already fails has the same first failure as the whole list. */
  lemma {:induction false} FirstInvalidOfPrefix(events: seq<Event>, n: nat)
    requires n <= |events| && FirstInvalid(events[..n]).Fail?
    ensures FirstInvalid(events) == FirstInvalid(events[..n])
    decreases |events| - n
  {
    if n < |events| {
      assert events[..n + 1][..n] == events[..n];
      FirstInvalidOfPrefix(events, n + 1);
    } else {
      assert events[..n] == events;
    }
  }

  /** Each posted event is the translation of the input event at the same position: type,
      user and context always, the event name only for track events, and application and
      OS details exactly when the input has them. */
  lemma {:induction false} TranslatedInOrder(events: seq<Event>)
    ensures |Translated(events)| == |events|
    ensures forall i :: 0 <= i < |events| ==>
              && Translated(events)[i].eventType == events[i].eventType
              && Translated(events)[i].userID == events[i].userID
              && Translated(events)[i].context == events[i].context
              && Translated(events)[i].event == (if events[i].eventType == EventTypeTrack then events[i].name else "")
              && Translated(events)[i].app == events[i].app && Translated(events)[i].os == events[i].os
  {
    TranslatedAt(events);
  }

  /** Position `i` of the batch is the translation of the `i`-th event. */
  lemma {:induction false} TranslatedAt(events: seq<Event>)
    ensures forall i :: 0 <= i < |events| ==> Translated(events)[i] == Translate(events[i])
  {
    if events != [] {
      var init := events[..|events| - 1];
      TranslatedAt(init);
      assert forall i :: 0 <= i < |init| ==> init[i] == events[i];
    }
  }

  /** `Dispatch`: an empty list posts nothing and succeeds. Otherwise the events are
      validated and translated in order, and the first invalid one aborts with its error
      before anything is posted. The batch posted holds one translated event per input
      event, in input order. `response` is the HTTP exchange: a failure to build or send
      the request is returned as it is, and a status of 400 or more is `ErrDispatchFailed`. */
  method Dispatch(d: Dispatcher, events: seq<Event>, response: Result<int, Error>)
    returns (r: Outcome<Error>, posted: Option<seq<SegmentEvent>>)
    ensures events == [] ==> r == Pass && posted == None
    ensures events != [] && FirstInvalid(events).Fail? ==> r == FirstInvalid(events) && posted == None
    ensures events != [] && FirstInvalid(events).Pass? ==>
              && posted == Some(Translated(events))
              && r == (if response.Failure? then Fail(response.error)
                       else if response.value >= 400 then Fail(DispatchFailed) else Pass)
  {
    if |events| == 0 {
      return Pass, None;
    }
    var batch;
    r, batch := TranslateAll(events);
    if r.Fail? {
      return r, None;
    }
    if response.Failure? {
      return Fail(response.error), Some(batch);
    }
    if response.value >= 400 {
      return Fail(DispatchFailed), Some(batch);
    }
    return Pass, Some(batch);
  }

  /** The validation and translation loop of `Dispatch`. */
  method TranslateAll(events: seq<Event>) returns (r: Outcome<Error>, batch: seq<SegmentEvent>)
    ensures r == FirstInvalid(events)
    ensures r.Pass? ==> batch == Translated(events)
  {
    batch := [];
    for i := 0 to |events|
      invariant batch == Translated(events[..i])
      invariant FirstInvalid(events[..i]).Pass?
    {
      assert events[..i + 1][..i] == events[..i];
      var valid := events[i].Validate();
      if valid.Fail? {
        FirstInvalidOfPrefix(events, i + 1);
        return valid, batch;
      }
      batch := batch + [Translate(events[i])];
    }
    assert events[..|events|] == events;
    return Pass, batch;
  }
}

=== FILE: session.dfy ===
/** The analytics Session aggregate of src/domain/analytics/session.go. */
module SessionDomain {
  import opened Wrappers
  import opened Clock
  import opened Errors
  import opened Ids

  datatype SessionState = SessionStateActive | SessionStateEnded

  /** The checks of `NewSession`, in Go's order: the user identifier, then a
      non-empty version, then a non-zero start time. The variant is not checked. */
  function CheckNewSession(userID: PlayerID, version: string, startedAt: Time): (r: Outcome<Error>)
    ensures r.Pass? <==> !IsBlank(userID) && version != "" && !IsZero(startedAt)
    ensures IsBlank(userID) ==> r == Fail(Msg(RequiredMessage(PlayerId)))
    ensures !IsBlank(userID) && version == "" ==> r == Fail(Msg("version is required"))
    ensures !IsBlank(userID) && version != "" && IsZero(startedAt) ==> r == Fail(Msg("start time is required"))
  {
    if Validate(PlayerId, userID).Fail? then Validate(PlayerId, userID)
    else if version == "" then Fail(Msg("version is required"))
    else if IsZero(startedAt) then Fail(Msg("start time is required"))
    else Pass
  }

  /** One user session, active until it is ended. */
  class Session {
    const userID: PlayerID
    const version: string
    const variant: string
    const startedAt: Time
    var state: SessionState
    var endedAt: Option<Time>

    /** The lifecycle invariant `NewSession` establishes and `End` keeps: the session
        carries an end time exactly when it is ended, and that time is not before the start. */
    ghost predicate Valid()
      reads this
    {
      (state == SessionStateEnded <==> endedAt.Some?)
      && (endedAt.Some? ==> !Before(endedAt.value, startedAt))
    }

    /** The struct literal of `NewSession`. */
    constructor (userID: PlayerID, version: string, variant: string, startedAt: Time)
      ensures this.userID == userID && this.version == version && this.variant == variant
      ensures this.startedAt == startedAt && state == SessionStateActive && endedAt == None
      ensures Valid()
    {
      this.userID, this.version, this.variant, this.startedAt := userID, version, variant, startedAt;
      state, endedAt := SessionStateActive, None;
    }

    /** `NewSession`: an error exactly when a check fails; otherwise a fresh active
        session with no end time. */
    static method NewSession(userID: PlayerID, version: string, variant: string, startedAt: Time)
      returns (r: Result<Session, Error>)
      ensures var check := CheckNewSession(userID, version, startedAt);
              (r.Failure? <==> check.Fail?) && (r.Failure? ==> r.error == check.error)
      ensures r.Success? ==> fresh(r.value) && r.value.Valid() && r.value.IsActive()
                             && r.value.userID == userID && r.value.version == version
                             && r.value.variant == variant && r.value.startedAt == startedAt
                             && r.value.endedAt == None
    {
      var check := CheckNewSession(userID, version, startedAt);
      if check.Fail? {
        return Failure(check.error);
      }
      var s := new Session(userID, version, variant, startedAt);
      return Success(s);
    }

    /** `End`: refused when already ended, then when the end time precedes the start;
        a refusal changes nothing. Otherwise the session is ended at `at`. */
    method End(at: Time) returns (r: Outcome<Error>)
      modifies this
      ensures r.Pass? <==> old(state) != SessionStateEnded && !Before(at, startedAt)
      ensures old(state) == SessionStateEnded ==> r == Fail(Msg("session already ended"))
      ensures old(state) != SessionStateEnded && Before(at, startedAt)
              ==> r == Fail(Msg("end time cannot be before start time"))
      ensures r.Fail? ==> unchanged(this)
      ensures r.Pass? ==> state == SessionStateEnded && endedAt == Some(at)
      ensures old(Valid()) ==> Valid()
    {
      if state == SessionStateEnded {
        return Fail(Msg("session already ended"));
      }
      if Before(at, startedAt) {
        return Fail(Msg("end time cannot be before start time"));
      }
      state := SessionStateEnded;
      endedAt := Some(at);
      return Pass;
    }

    /** `IsActive`. */
    predicate IsActive()
      reads this
    {
      state == SessionStateActive
    }

    /** `Duration`: the time from the start to the end time when there is one, else to
        the wall clock `wallNow`. A valid session never has a negative ended duration. */
    function Duration(wallNow: Time): (r: Clock.Duration)
      reads this
      ensures endedAt.Some? ==> r + startedAt == endedAt.value
      ensures endedAt.None? ==> r + startedAt == wallNow
      ensures Valid() && !IsActive() ==> r >= 0
    {
      if endedAt.None? then wallNow - startedAt else endedAt.value - startedAt
    }
  }
}

=== FILE: tournament.dfy ===
/** The Tournament aggregate of src/domain/tournament/tournament.go. */
module TournamentDomain {
  import opened Wrappers
  import opened Clock
  import opened Errors
  import opened Ids

  /** Any string is accepted; "asc" and "desc" are the named values. */
  type SortOrder = string
  const SortOrderAscending: SortOrder := "asc"
  const SortOrderDescending: SortOrder := "desc"

  /** Any string is accepted; "best", "set", "incr" and "decr" are the named values. */
  type Operator = string
  const OperatorBest: Operator := "best"
  const OperatorSet: Operator := "set"
  const OperatorIncrement: Operator := "incr"
  const OperatorDecrement: Operator := "decr"

  datatype TournamentState = StateActive | StateEnded | StateReset

  /** The checks of `NewTournament`, in Go's order: the call fails
      exactly when one of them fails, and a blank identifier is reported first. */
  function CheckNewTournament(id: TournamentID, title: string, category: int, maxSize: int,
                              maxNumScore: int, startTime: Time, duration: Duration): (r: Outcome<Error>)
    ensures r.Pass? <==> !IsBlank(id) && title != "" && category >= 0 && maxSize >= 0
                         && maxNumScore >= 0 && !IsZero(startTime) && duration >= 0
    ensures IsBlank(id) ==> r == Fail(Msg(RequiredMessage(TournamentId)))
  {
    if Validate(TournamentId, id).Fail? then Validate(TournamentId, id)
    else if title == "" then Fail(Msg("title is required"))
    else if category < 0 then Fail(Msg("category must be non-negative"))
    else if maxSize < 0 then Fail(Msg("max size must be non-negative"))
    else if maxNumScore < 0 then Fail(Msg("max num score must be non-negative"))
    else if IsZero(startTime) then Fail(Msg("start time is required"))
    else if duration < 0 then Fail(Msg("duration must be non-negative"))
    else Pass
  }

  /** A competitive event. Fields Go never assigns after construction are constants. */
  class Tournament {
    const id: TournamentID
    const title: string
    const description: string
    const category: int
    const sortOrder: SortOrder
    const operator: Operator
    const resetSchedule: string
    const authoritative: bool
    const joinRequired: bool
    const maxSize: int
    const maxNumScore: int
    const startTime: Time
    const duration: Duration
    const createdAt: Time
    var endTime: Option<Time>
    var state: TournamentState
    var updatedAt: Time

    /** The lifecycle invariant: an active tournament has no end time, an ended one has
        one, and a recorded end time is never before the start. */
    ghost predicate Valid()
      reads this
    {
      && (state == StateActive ==> endTime == None)
      && (state == StateEnded ==> endTime.Some?)
      && (endTime.Some? ==> !Before(endTime.value, startTime))
    }

    /** The fields of a tournament just built from these arguments at `now`. */
    ghost predicate Initial(id: TournamentID, title: string, description: string, category: int,
                            sortOrder: SortOrder, operator: Operator, resetSchedule: string,
                            authoritative: bool, joinRequired: bool, maxSize: int, maxNumScore: int,
                            startTime: Time, duration: Duration, now: Time)
      reads this
    {
      && this.id == id && this.title == title && this.description == description
      && this.category == category && this.sortOrder == sortOrder && this.operator == operator
      && this.resetSchedule == resetSchedule && this.authoritative == authoritative
      && this.joinRequired == joinRequired && this.maxSize == maxSize
      && this.maxNumScore == maxNumScore && this.startTime == startTime
      && this.duration == duration && this.state == StateActive && this.endTime == None
      && this.createdAt == now && this.updatedAt == now
    }

    /** The struct literal of `NewTournament`, once its checks have passed. */
    constructor (id: TournamentID, title: string, description: string, category: int,
                 sortOrder: SortOrder, operator: Operator, resetSchedule: string,
                 authoritative: bool, joinRequired: bool, maxSize: int, maxNumScore: int,
                 startTime: Time, duration: Duration, now: Time)
      ensures Initial(id, title, description, category, sortOrder, operator, resetSchedule,
                      authoritative, joinRequired, maxSize, maxNumScore, startTime, duration, now)
      ensures Valid()
    {
      this.id, this.title, this.description := id, title, description;
      this.category, this.sortOrder, this.operator := category, sortOrder, operator;
      this.resetSchedule, this.authoritative, this.joinRequired := resetSchedule, authoritative, joinRequired;
      this.maxSize, this.maxNumScore := maxSize, maxNumScore;
      this.startTime, this.duration := startTime, duration;
      this.state, this.endTime := StateActive, None;
      this.createdAt, this.updatedAt := now, now;
    }

    /** `NewTournament`: an error exactly when a check fails; otherwise a fresh active
        tournament, with no end time, created and updated at `now`, that passes `Validate`. */
    static method NewTournament(id: TournamentID, title: string, description: string, category: int,
                                sortOrder: SortOrder, operator: Operator, resetSchedule: string,
                                authoritative: bool, joinRequired: bool, maxSize: int, maxNumScore: int,
                                startTime: Time, duration: Duration, now: Time)
      returns (r: Result<Tournament, Error>)
      ensures var check := CheckNewTournament(id, title, category, maxSize, maxNumScore, startTime, duration);
              (r.Failure? <==> check.Fail?) && (r.Failure? ==> r.error == check.error)
      ensures r.Success? ==> fresh(r.value) && r.value.Valid() && r.value.IsActive()
      ensures r.Success? ==> r.value.Initial(id, title, description, category, sortOrder, operator,
                                            resetSchedule, authoritative, joinRequired, maxSize,
                                            maxNumScore, startTime, duration, now)
      ensures r.Success? ==> r.value.Validate() == Pass
    {
      var check := CheckNewTournament(id, title, category, maxSize, maxNumScore, startTime, duration);
      if check.Fail? {
        return Failure(check.error);
      }
      var t := new Tournament(id, title, description, category, sortOrder, operator, resetSchedule,
                              authoritative, joinRequired, maxSize, maxNumScore, startTime, duration, now);
      return Success(t);
    }

    /** `End`: refused only when already ended (so a reset tournament may still end), or
        when `endTime` is before the start; a refusal changes nothing. Otherwise the
        tournament is ended at `endTime`. */
    method End(endTime: Time) returns (r: Outcome<Error>)
      modifies this
      ensures r.Pass? <==> old(state) != StateEnded && !Before(endTime, startTime)
      ensures old(state) == StateEnded ==> r == Fail(TournamentAlreadyEnded)
      ensures old(state) != StateEnded && Before(endTime, startTime) ==>
                r == Fail(Msg("end time cannot be before start time"))
      ensures r.Fail? ==> unchanged(this)
      ensures r.Pass? ==> state == StateEnded && this.endTime == Some(endTime)
                          && updatedAt == endTime && !IsActive()
      ensures old(Valid()) ==> Valid()
    {
      if state == StateEnded {
        return Fail(TournamentAlreadyEnded);
      }
      if Before(endTime, startTime) {
        return Fail(Msg("end time cannot be before start time"));
      }
      state := StateEnded;
      this.endTime := Some(endTime);
      updatedAt := endTime;
      return Pass;
    }

    /** `Reset`: allowed from the active and ended states only; it keeps the end time.
        A refusal changes nothing. */
    method Reset(resetTime: Time) returns (r: Outcome<Error>)
      modifies this
      ensures r.Pass? <==> old(state) == StateActive || old(state) == StateEnded
      ensures r.Fail? ==> r == Fail(Msg("can only reset active or ended tournaments")) && unchanged(this)
      ensures r.Pass? ==> state == StateReset && updatedAt == resetTime && endTime == old(endTime)
      ensures old(Valid()) ==> Valid()
    {
      if state != StateActive && state != StateEnded {
        return Fail(Msg("can only reset active or ended tournaments"));
      }
      state := StateReset;
      updatedAt := resetTime;
      return Pass;
    }

    /** `IsActive`. */
    predicate IsActive()
      reads this
    {
      state == StateActive
    }

    /** `CalculateEndTime`: start plus duration when the duration is positive, else the
        recorded end time, else the zero time. For a valid tournament the result is the
        zero time or not before the start. */
    function CalculateEndTime(): (r: Time)
      reads this
      ensures duration > 0 ==> r == startTime + duration && After(r, startTime)
      ensures duration <= 0 && endTime.Some? ==> r == endTime.value
      ensures duration <= 0 && endTime.None? ==> IsZero(r)
      ensures Valid() ==> IsZero(r) || !Before(r, startTime)
    {
      if duration > 0 then startTime + duration
      else if endTime.Some? then endTime.value
      else ZeroTime
    }

    /** `Validate`: passes exactly when the identifier is not blank, the title is not
        empty and the start time is set. */
    function Validate(): (r: Outcome<Error>)
      reads this
      ensures r.Pass? <==> !IsBlank(id) && title != "" && !IsZero(startTime)
    {
      if Ids.Validate(TournamentId, id).Fail? then Ids.Validate(TournamentId, id)
      else if title == "" then Fail(Msg("title is required"))
      else if IsZero(startTime) then Fail(Msg("start time is required"))
      else Pass
    }
  }
}

=== FILE: tournament_service.dfy ===
/** The tournament command service of src/app/tournaments/service.go.

    The tournament and participant repositories are abstracted as maps held by the
    service; whether a repository or Nakama call fails is an outcome parameter of the
    operation (`None` when the call succeeds), and `now` is the service clock's reading.
    The ghost `trace` records every collaborator call in order, so that what happens on
    each failure path can be stated. */
module TournamentService {
  import opened Wrappers
  import opened Clock
  import opened Errors
  import opened Ids
  import opened TournamentDomain
  import opened ParticipantDomain

  /** `CreateTournamentCommand`. */
  datatype CreateTournamentCommand = CreateTournamentCommand(
    id: TournamentID, title: string, description: string, category: int,
    sortOrder: SortOrder, operator: Operator, resetSchedule: string,
    authoritative: bool, joinRequired: bool, maxSize: int, maxNumScore: int,
    startTime: Time, endTime: Option<Time>, duration: Duration)

  /** `CreateTournamentParams`: what Nakama is asked to create; times and the duration
      are whole seconds. */
  datatype CreateTournamentParams = CreateTournamentParams(
    id: string, authoritative: bool, sortOrder: string, operator: string,
    resetSchedule: string, title: string, description: string, category: int,
    startTime: int, endTime: int, duration: int, maxSize: int, maxNumScore: int,
    joinRequired: bool)

  /** A call the service makes on one of its collaborators. */
  datatype Call =
    | RepoSave(tournament: TournamentID)
    | RepoGet(tournament: TournamentID)
    | RepoDelete(tournament: TournamentID)
    | RepoList(limit: int, offset: int)
    | ParticipantGet(tournament: TournamentID, player: PlayerID)
    | ParticipantSave(tournament: TournamentID, player: PlayerID, attempts: int)
    | ProviderCreate(params: CreateTournamentParams)
    | ProviderDelete(tournament: TournamentID)
    | ProviderAddAttempt(tournament: TournamentID, player: PlayerID, count: int)

  /** The Nakama parameters `CreateTournament` renders from a command: the start as Unix
      seconds, the duration in whole seconds truncated toward zero, the end as Unix
      seconds when the command has one and 0 otherwise; every other field copied. */
  function ProviderParams(cmd: CreateTournamentCommand): (p: CreateTournamentParams)
    ensures p.id == cmd.id && p.title == cmd.title && p.description == cmd.description
    ensures p.category == cmd.category && p.sortOrder == cmd.sortOrder && p.operator == cmd.operator
    ensures p.resetSchedule == cmd.resetSchedule && p.authoritative == cmd.authoritative
    ensures p.joinRequired == cmd.joinRequired && p.maxSize == cmd.maxSize && p.maxNumScore == cmd.maxNumScore
    ensures (p.startTime + UnixEpochSeconds) * Second <= cmd.startTime < (p.startTime + UnixEpochSeconds + 1) * Second
    ensures cmd.duration >= 0 ==> p.duration >= 0 && p.duration * Second <= cmd.duration < (p.duration + 1) * Second
    ensures cmd.endTime.None? ==> p.endTime == 0
    ensures cmd.endTime.Some? ==>
              (p.endTime + UnixEpochSeconds) * Second <= cmd.endTime.value < (p.endTime + UnixEpochSeconds + 1) * Second
  {
    CreateTournamentParams(
      cmd.id, cmd.authoritative, cmd.sortOrder, cmd.operator, cmd.resetSchedule,
      cmd.title, cmd.description, cmd.category, UnixSeconds(cmd.startTime),
      if cmd.endTime.Some? then UnixSeconds(cmd.endTime.value) else 0,
      WholeSeconds(cmd.duration), cmd.maxSize, cmd.maxNumScore, cmd.joinRequired)
  }

  /** The checks `AddAttempt` makes before touching any repository: the tournament
      identifier, the player identifier, then a positive count. */
  function CheckAddAttempt(tournamentID: TournamentID, playerID: PlayerID, count: int): (r: Outcome<Error>)
    ensures r.Pass? <==> !IsBlank(tournamentID) && !IsBlank(playerID) && count > 0
    ensures IsBlank(tournamentID) ==> r == Fail(Msg(RequiredMessage(TournamentId)))
    ensures !IsBlank(tournamentID) && IsBlank(playerID) ==> r == Fail(Msg(RequiredMessage(PlayerId)))
    ensures !IsBlank(tournamentID) && !IsBlank(playerID) && count <= 0 ==> r == Fail(InvalidAttemptCount)
  {
    if Ids.Validate(TournamentId, tournamentID).Fail? then Ids.Validate(TournamentId, tournamentID)
    else if Ids.Validate(PlayerId, playerID).Fail? then Ids.Validate(PlayerId, playerID)
    else if count <= 0 then Fail(InvalidAttemptCount)
    else Pass
  }

  /** The page `ListTournaments` asks for: a non-positive limit becomes 10 and a negative
      offset becomes 0; anything else is passed through. */
  function NormalizePage(limit: int, offset: int): (page: (int, int))
    ensures page.0 > 0 && page.1 >= 0
    ensures limit > 0 ==> page.0 == limit
    ensures limit <= 0 ==> page.0 == 10
    ensures offset >= 0 ==> page.1 == offset
    ensures offset < 0 ==> page.1 == 0
  {
    (if limit <= 0 then 10 else limit, if offset < 0 then 0 else offset)
  }

  /** What the participant repository's `Get` answers: the reported error when the
      repository fails, else the stored participant, else `ErrParticipantNotFound`. */
  function LookupParticipant(m: map<(TournamentID, PlayerID), Participant>, key: (TournamentID, PlayerID),
                             fault: Option<Error>): (r: Result<Participant, Error>)
    ensures fault.Some? ==> r == Failure(fault.value)
    ensures fault.None? ==> (r.Success? <==> key in m)
    ensures r.Success? ==> key in m && r.value == m[key]
    ensures fault.None? && key !in m ==> r == Failure(ParticipantNotFound)
  {
    if fault.Some? then Failure(fault.value)
    else if key in m then Success(m[key])
    else Failure(ParticipantNotFound)
  }

  class Service {
    var tournaments: map<TournamentID, Tournament>
    var participants: map<(TournamentID, PlayerID), Participant>
    ghost var trace: seq<Call>

    /** Each repository files its entries under their own identifiers. */
    ghost predicate Valid()
      reads this
    {
      (forall id :: id in tournaments ==> tournaments[id].id == id)
      && (forall k :: k in participants ==> participants[k].tournamentID == k.0 && participants[k].playerID == k.1)
    }

    /** `NewService` over empty repositories. */
    constructor ()
      ensures tournaments == map[] && participants == map[] && trace == [] && Valid()
    {
      tournaments, participants := map[], map[];
      trace := [];
    }

    /** `CreateTournament`: builds the aggregate, saves it, then asks Nakama to create it,
        stopping at the first failure. A rejected command makes no call; a failed save
        makes no Nakama call; a failed Nakama call leaves the saved tournament in place.
        The stored tournament never receives the command's end time. */
    method CreateTournament(cmd: CreateTournamentCommand, now: Time, saveFault: Option<Error>, providerFault: Option<Error>)
      returns (r: Result<TournamentID, Error>)
      requires Valid()
      modifies this
      ensures Valid() && participants == old(participants)
      ensures var check := CheckNewTournament(cmd.id, cmd.title, cmd.category, cmd.maxSize, cmd.maxNumScore,
                                              cmd.startTime, cmd.duration);
              check.Fail? ==> r == Failure(check.error) && trace == old(trace) && tournaments == old(tournaments)
      ensures var check := CheckNewTournament(cmd.id, cmd.title, cmd.category, cmd.maxSize, cmd.maxNumScore,
                                              cmd.startTime, cmd.duration);
              check.Pass? && saveFault.Some? ==>
                r == Failure(saveFault.value) && trace == old(trace) + [RepoSave(cmd.id)]
                && tournaments == old(tournaments)
      ensures var check := CheckNewTournament(cmd.id, cmd.title, cmd.category, cmd.maxSize, cmd.maxNumScore,
                                              cmd.startTime, cmd.duration);
              check.Pass? && saveFault.None? ==>
                && cmd.id in tournaments && fresh(tournaments[cmd.id])
                && tournaments == old(tournaments)[cmd.id := tournaments[cmd.id]]
                && tournaments[cmd.id].Initial(cmd.id, cmd.title, cmd.description, cmd.category, cmd.sortOrder,
                                               cmd.operator, cmd.resetSchedule, cmd.authoritative, cmd.joinRequired,
                                               cmd.maxSize, cmd.maxNumScore, cmd.startTime, cmd.duration, now)
                && trace == old(trace) + [RepoSave(cmd.id)] + [ProviderCreate(ProviderParams(cmd))]
                && r == (if providerFault.Some? then Failure(providerFault.value) else Success(cmd.id))
    {
      var built := Tournament.NewTournament(cmd.id, cmd.title, cmd.description, cmd.category, cmd.sortOrder,
                                            cmd.operator, cmd.resetSchedule, cmd.authoritative, cmd.joinRequired,
                                            cmd.maxSize, cmd.maxNumScore, cmd.startTime, cmd.duration, now);
      if built.Failure? {
        return Failure(built.error);
      }
      var t := built.value;
      trace := trace + [RepoSave(cmd.id)];
      assert tournaments == old(tournaments) && participants == old(participants);
      if saveFault.Some? {
        return Failure(saveFault.value);
      }
      tournaments := tournaments[t.id := t];
      assert participants == old(participants);
      assert Valid();
      var params := ProviderParams(cmd);
      trace := trace + [ProviderCreate(params)];
      assert participants == old(participants);
      if providerFault.Some? {
        return Failure(providerFault.value);
      }
      return Success(t.id);
    }

    /** `DeleteTournament`: an invalid identifier fails with no call; otherwise Nakama
        deletes first, and only after it succeeds does the repository delete. */
    method DeleteTournament(id: TournamentID, providerFault: Option<Error>, deleteFault: Option<Error>)
      returns (r: Outcome<Error>)
      requires Valid()
      modifies this
      ensures Valid() && participants == old(participants)
      ensures IsBlank(id) ==> r == Fail(Msg(RequiredMessage(TournamentId))) && unchanged(this)
      ensures !IsBlank(id) && providerFault.Some? ==>
                r == Fail(providerFault.value) && trace == old(trace) + [ProviderDelete(id)]
                && tournaments == old(tournaments)
      ensures !IsBlank(id) && providerFault.None? && deleteFault.Some? ==>
                r == Fail(deleteFault.value) && trace == old(trace) + [ProviderDelete(id)] + [RepoDelete(id)]
                && tournaments == old(tournaments)
      ensures !IsBlank(id) && providerFault.None? && deleteFault.None? ==>
                r == Pass && trace == old(trace) + [ProviderDelete(id)] + [RepoDelete(id)]
                && tournaments == old(tournaments) - {id}
    {
      var valid := Ids.Validate(TournamentId, id);
      if valid.Fail? {
        return valid;
      }
      trace := trace + [ProviderDelete(id)];
      assert tournaments == old(tournaments) && participants == old(participants);
      if providerFault.Some? {
        return Fail(providerFault.value);
      }
      trace := trace + [RepoDelete(id)];
      if deleteFault.Some? {
        return Fail(deleteFault.value);
      }
      tournaments := tournaments - {id};
      return Pass;
    }

    /** The get-or-create step of `AddAttempt`: asks the repository for the pair's
        participant and builds a fresh one (no attempts, joined at `now`) exactly when
        the repository reports `ErrParticipantNotFound`; any other error is returned. */
    method GetOrCreateParticipant(tournamentID: TournamentID, playerID: PlayerID, now: Time, getFault: Option<Error>)
      returns (r: Result<Participant, Error>)
      requires !IsBlank(tournamentID) && !IsBlank(playerID)
      modifies this
      ensures tournaments == old(tournaments) && participants == old(participants)
      ensures trace == old(trace) + [ParticipantGet(tournamentID, playerID)]
      ensures r.Success? ==> fresh(r.value) || (getFault.None? && (tournamentID, playerID) in participants
                                                && r.value == participants[(tournamentID, playerID)])
      ensures var found := LookupParticipant(participants, (tournamentID, playerID), getFault);
              && (found.Success? ==> r == found)
              && (found.Failure? && found.error != ParticipantNotFound ==> r == found)
              && (found.Failure? && found.error == ParticipantNotFound && IsZero(now) ==>
                    r == Failure(Msg("joined time is required")))
              && (found.Failure? && found.error == ParticipantNotFound && !IsZero(now) ==>
                    r.Success? && fresh(r.value) && r.value.tournamentID == tournamentID
                    && r.value.playerID == playerID && r.value.attempts == 0 && r.value.joinedAt == now)
    {
      trace := trace + [ParticipantGet(tournamentID, playerID)];
      assert tournaments == old(tournaments) && participants == old(participants);
      var found := LookupParticipant(participants, (tournamentID, playerID), getFault);
      if found.Success? || found.error != ParticipantNotFound {
        return found;
      }
      ghost var check := CheckNewParticipant(tournamentID, playerID, now);
      assert check.Fail? <==> IsZero(now);
      r := Participant.NewParticipant(tournamentID, playerID, now);
    }

    /** `AddAttempt`: the checks come before any repository access; what follows them is
        `RecordAttempts`. */
    method AddAttempt(tournamentID: TournamentID, playerID: PlayerID, count: int, now: Time,
                      getFault: Option<Error>, saveFault: Option<Error>, providerFault: Option<Error>)
      returns (r: Outcome<Error>)
      requires Valid()
      modifies this, if (tournamentID, playerID) in participants then {participants[(tournamentID, playerID)]} else {}
      ensures Valid() && tournaments == old(tournaments)
      ensures var check := CheckAddAttempt(tournamentID, playerID, count);
              check.Fail? ==> r == check && trace == old(trace) && participants == old(participants)
      ensures (CheckAddAttempt(tournamentID, playerID, count).Fail? || getFault.Some?) && (tournamentID, playerID) in old(participants)
              ==> unchanged(old(participants)[(tournamentID, playerID)])
      ensures var found := LookupParticipant(old(participants), (tournamentID, playerID), getFault);
              CheckAddAttempt(tournamentID, playerID, count).Pass? && found.Success? ==>
                found.value.attempts == old(found.value.attempts) + count
      ensures CheckAddAttempt(tournamentID, playerID, count).Pass? ==>
                RecordedAttempts(old(participants), old(trace), tournamentID, playerID, count, now,
                                 getFault, saveFault, providerFault, r)
    {
      var check := CheckAddAttempt(tournamentID, playerID, count);
      if check.Fail? {
        return check;
      }
      r := RecordAttempts(tournamentID, playerID, count, now, getFault, saveFault, providerFault);
    }

    /** The outcome of `AddAttempt` past its checks, against the repository and trace
        before the call. The participant is fetched, or created when (and only when) the
        repository reports `ErrParticipantNotFound`, joined at `now`; any other error is
        returned with no further call. Its attempts grow by `count`, then it is saved, and only a
        successful save is followed by the Nakama call. */
    ghost predicate RecordedAttempts(before: map<(TournamentID, PlayerID), Participant>, trace0: seq<Call>,
                                     tournamentID: TournamentID, playerID: PlayerID, count: int, now: Time,
                                     getFault: Option<Error>, saveFault: Option<Error>, providerFault: Option<Error>,
                                     r: Outcome<Error>)
      reads this, before.Values, participants.Values
    {
      var key := (tournamentID, playerID);
      var found := LookupParticipant(before, key, getFault);
      if found.Failure? && (found.error != ParticipantNotFound || IsZero(now)) then
        && (found.error != ParticipantNotFound ==> r == Fail(found.error))
        && (found.error == ParticipantNotFound ==> r == Fail(Msg("joined time is required")))
        && trace == trace0 + [ParticipantGet(tournamentID, playerID)] && participants == before
      else
        var total := (if found.Success? then found.value.attempts else count);
        && Applied(before, trace0 + [ParticipantGet(tournamentID, playerID)], key, total, count, now,
                   saveFault, providerFault, r)
        && (found.Success? && saveFault.None? ==> participants[key] == found.value)
        && (found.Failure? && saveFault.None? ==> participants[key].joinedAt == now)
    }

    /** What saving the participant of `key`, whose counter now reads `total`, leaves
        behind: a failed save is returned with the repository untouched; otherwise the
        participant is stored under `key` and only then is Nakama told of `count`. */
    ghost predicate Applied(before: map<(TournamentID, PlayerID), Participant>, trace0: seq<Call>,
                            key: (TournamentID, PlayerID), total: int, count: int, now: Time,
                            saveFault: Option<Error>, providerFault: Option<Error>, r: Outcome<Error>)
      reads this, participants.Values
    {
      var saved := trace0 + [ParticipantSave(key.0, key.1, total)];
      if saveFault.Some? then
        r == Fail(saveFault.value) && trace == saved && participants == before
      else
        && key in participants && participants == before[key := participants[key]]
        && participants[key].attempts == total && participants[key].updatedAt == now
        && trace == saved + [ProviderAddAttempt(key.0, key.1, count)]
        && r == (if providerFault.Some? then Fail(providerFault.value) else Pass)
    }

    /** `AddAttempt` past its checks; see `RecordedAttempts`. An existing participant's
        counter grows by exactly `count`, even when the save then fails. */
    method RecordAttempts(tournamentID: TournamentID, playerID: PlayerID, count: int, now: Time,
                          getFault: Option<Error>, saveFault: Option<Error>, providerFault: Option<Error>)
      returns (r: Outcome<Error>)
      requires Valid() && !IsBlank(tournamentID) && !IsBlank(playerID) && count > 0
      modifies this, if (tournamentID, playerID) in participants then {participants[(tournamentID, playerID)]} else {}
      ensures Valid() && tournaments == old(tournaments)
      ensures var found := LookupParticipant(old(participants), (tournamentID, playerID), getFault);
              found.Success? ==> found.value.attempts == old(found.value.attempts) + count
      ensures getFault.Some? && (tournamentID, playerID) in old(participants)
              ==> unchanged(old(participants)[(tournamentID, playerID)])
      ensures RecordedAttempts(old(participants), old(trace), tournamentID, playerID, count, now,
                               getFault, saveFault, providerFault, r)
    {
      ghost var found := LookupParticipant(participants, (tournamentID, playerID), getFault);
      ghost var stored: Participant? := if (tournamentID, playerID) in participants then participants[(tournamentID, playerID)] else null;
      var got := GetOrCreateParticipant(tournamentID, playerID, now, getFault);
      if got.Failure? {
        assert found.Failure? && (found.error != ParticipantNotFound || IsZero(now));
        assert stored != null ==> unchanged(stored);
        return Fail(got.error);
      }
      ghost var total := if found.Success? then found.value.attempts + count else count;
      assert got.value.attempts + count == total;
      assert got.value.tournamentID == tournamentID && got.value.playerID == playerID;
      assert getFault.Some? ==> fresh(got.value) && got.value != stored;
      r := ApplyAttempts(got.value, count, now, saveFault, providerFault);
      assert got.value.attempts == total;
      assert getFault.Some? && stored != null ==> unchanged(stored);
    }

    /** The rest of `AddAttempt` once the participant is at hand: its attempts grow by
        `count` in place, it is saved, and Nakama is told only after the save succeeded. */
    method ApplyAttempts(participant: Participant, count: int, now: Time, saveFault: Option<Error>, providerFault: Option<Error>)
      returns (r: Outcome<Error>)
      requires Valid() && count > 0
      modifies this, participant
      ensures Valid() && tournaments == old(tournaments)
      ensures participant.attempts == old(participant.attempts) + count && participant.updatedAt == now
      ensures Applied(old(participants), old(trace), (participant.tournamentID, participant.playerID),
                      participant.attempts, count, now, saveFault, providerFault, r)
      ensures saveFault.None? ==> participants[(participant.tournamentID, participant.playerID)] == participant
    {
      var added := participant.AddAttempts(count, now);
      assert added.Pass?;
      trace := trace + [ParticipantSave(participant.tournamentID, participant.playerID, participant.attempts)];
      if saveFault.Some? {
        return Fail(saveFault.value);
      }
      participants := participants[(participant.tournamentID, participant.playerID) := participant];
      trace := trace + [ProviderAddAttempt(participant.tournamentID, participant.playerID, count)];
      if providerFault.Some? {
        return Fail(providerFault.value);
      }
      return Pass;
    }

    /** `GetTournament`: an invalid identifier fails before the repository is asked;
        otherwise the repository's answer is returned as it is. */
    method GetTournament(id: TournamentID, getFault: Option<Error>) returns (r: Result<Tournament, Error>)
      modifies this
      ensures tournaments == old(tournaments) && participants == old(participants)
      ensures IsBlank(id) ==> r == Failure(Msg(RequiredMessage(TournamentId))) && trace == old(trace)
      ensures !IsBlank(id) ==> trace == old(trace) + [RepoGet(id)]
      ensures !IsBlank(id) && getFault.Some? ==> r == Failure(getFault.value)
      ensures !IsBlank(id) && getFault.None? ==>
                (r.Success? <==> id in tournaments)
                && (r.Success? ==> r.value == tournaments[id])
                && (r.Failure? ==> r.error == TournamentNotFound)
    {
      var valid := Ids.Validate(TournamentId, id);
      if valid.Fail? {
        return Failure(valid.error);
      }
      trace := trace + [RepoGet(id)];
      if getFault.Some? {
        return Failure(getFault.value);
      }
      if id !in tournaments {
        return Failure(TournamentNotFound);
      }
      return Success(tournaments[id]);
    }

    /** `ListTournaments`: normalizes the page, then returns the repository's listing
        (given as `listing`) unchanged. */
    method ListTournaments(limit: int, offset: int, listing: Result<seq<Tournament>, Error>)
      returns (r: Result<seq<Tournament>, Error>)
      modifies this
      ensures tournaments == old(tournaments) && participants == old(participants)
      ensures var page := NormalizePage(limit, offset);
              trace == old(trace) + [RepoList(page.0, page.1)] && page.0 > 0 && page.1 >= 0
      ensures r == listing
    {
      var page := NormalizePage(limit, offset);
      trace := trace + [RepoList(page.0, page.1)];
      return listing;
    }
  }
}

=== FILE: tracker.dfy ===
/** The legacy Segment tracker of se/se.go. Events are plain values; options are
    modelled as data naming the change they make. Serialising and posting a batch are
    not modelled: the transport's outcome is a parameter, and Go's runtime version,
    operating system and architecture are parameters too. */
module LegacyTracker {
  import opened Wrappers
  import opened Errors
  import E = EventDomain

  const DefaultBaseURL: string := "https://api.segment.io/v1/batch"
  const EventStart: string := "start"
  const EventEnd: string := "end"

  /** A Segment event as this package builds it; absent details are `None`. */
  datatype Event = Event(eventType: string, userID: string, name: string, context: E.Context,
                         app: Option<E.AppInfo>, os: Option<E.OSInfo>)

  /** The HTTP client a tracker posts with: the default one (five-second timeout) or one
      supplied by the caller. */
  datatype HttpClient = DefaultClient | CustomClient(name: string)

  /** A tracker's configuration. The context factory is represented by the context it
      produces. */
  datatype Tracker = Tracker(key: string, baseURL: string, httpClient: HttpClient, context: E.Context)

  /** `TrackerOption`s; `None` stands for Go's nil argument. */
  datatype TrackerOption =
    | WithHTTPClient(client: Option<HttpClient>)
    | WithBaseURL(url: string)
    | WithContextFactory(factory: Option<E.Context>)

  /** `EventOption`s. */
  datatype EventOption = WithAppInfo(appName: string, appVersion: string) | WithOSInfo(osName: string, osVersion: string)

  /** `defaultContext`: a direct event from the Go library at the runtime's version. */
  function DefaultContext(goVersion: string): (c: E.Context)
    ensures c.direct && c.library.name == "go" && c.library.version == goVersion
  {
    E.Context(true, E.LibraryInfo("go", goVersion))
  }

  /** The base URL selected by `opts`: that of the last `WithBaseURL` with a non-empty
      URL, or `fallback` when there is none. */
  function LastBaseURL(opts: seq<TrackerOption>, fallback: string): string
  {
    if opts == [] then fallback
    else
      var o := opts[|opts| - 1];
      if o.WithBaseURL? && o.url != "" then o.url else LastBaseURL(opts[..|opts| - 1], fallback)
  }

  /** The client selected by `opts`: that of the last non-nil `WithHTTPClient`. */
  function LastClient(opts: seq<TrackerOption>, fallback: HttpClient): HttpClient
  {
    if opts == [] then fallback
    else
      var o := opts[|opts| - 1];
      if o.WithHTTPClient? && o.client.Some? then o.client.value else LastClient(opts[..|opts| - 1], fallback)
  }

  /** The context selected by `opts`: that of the last non-nil `WithContextFactory`. */
  function LastContext(opts: seq<TrackerOption>, fallback: E.Context): E.Context
  {
    if opts == [] then fallback
    else
      var o := opts[|opts| - 1];
      if o.WithContextFactory? && o.factory.Some? then o.factory.value else LastContext(opts[..|opts| - 1], fallback)
  }

  /** `NewTracker`: the defaults, then every option applied in order, so that for each
      setting the last option that supplies a value wins and empty or nil ones are
      ignored. */
  method NewTracker(key: string, goVersion: string, opts: seq<TrackerOption>) returns (t: Tracker)
    ensures t.key == key
    ensures t.baseURL == LastBaseURL(opts, DefaultBaseURL)
    ensures t.httpClient == LastClient(opts, DefaultClient)
    ensures t.context == LastContext(opts, DefaultContext(goVersion))
  {
    t := Tracker(key, DefaultBaseURL, DefaultClient, DefaultContext(goVersion));
    for i := 0 to |opts|
      invariant t.key == key
      invariant t.baseURL == LastBaseURL(opts[..i], DefaultBaseURL)
      invariant t.httpClient == LastClient(opts[..i], DefaultClient)
      invariant t.context == LastContext(opts[..i], DefaultContext(goVersion))
    {
      assert opts[..i + 1][..i] == opts[..i];
      match opts[i]
      case WithHTTPClient(client) =>
        if client.Some? {
          t := t.(httpClient := client.value);
        }
      case WithBaseURL(url) =>
        if url != "" {
          t := t.(baseURL := url);
        }
      case WithContextFactory(factory) =>
        if factory.Some? {
          t := t.(context := factory.value);
        }
    }
    assert opts[..|opts|] == opts;
  }

  /** Without options, or with only empty and nil ones, a tracker keeps every default. */
  lemma {:induction false} IgnoredOptionsKeepDefaults(opts: seq<TrackerOption>, url: string, client: HttpClient, ctx: E.Context)
    requires forall i :: 0 <= i < |opts| ==> opts[i] in {WithBaseURL(""), WithHTTPClient(None), WithContextFactory(None)}
    ensures LastBaseURL(opts, url) == url && LastClient(opts, client) == client && LastContext(opts, ctx) == ctx
  {
    if opts != [] {
      IgnoredOptionsKeepDefaults(opts[..|opts| - 1], url, client, ctx);
    }
  }

  /** The last `WithBaseURL` with a non-empty URL decides, whatever follows it that does
      not set the URL. */
  lemma {:induction false} LaterBaseURLWins(opts: seq<TrackerOption>, url: string, rest: seq<TrackerOption>, fallback: string)
    requires url != ""
    requires forall i :: 0 <= i < |rest| ==> !(rest[i].WithBaseURL? && rest[i].url != "")
    ensures LastBaseURL(opts + [WithBaseURL(url)] + rest, fallback) == url
  {
    if rest != [] {
      var all := opts + [WithBaseURL(url)] + rest;
      assert all[..|all| - 1] == opts + [WithBaseURL(url)] + rest[..|rest| - 1];
      LaterBaseURLWins(opts, url, rest[..|rest| - 1], fallback);
    } else {
      assert opts + [WithBaseURL(url)] + rest == opts + [WithBaseURL(url)];
    }
  }

  /** `NewIdentifyEvent`: an identify event for the user in the given context, with no
      name and no details; nothing is validated. */
  function NewIdentifyEvent(userID: string, ctx: E.Context): (e: Event)
    ensures e.eventType == E.EventTypeIdentify && e.userID == userID && e.context == ctx
    ensures e.name == "" && e.app == None && e.os == None
  {
    Event(E.EventTypeIdentify, userID, "", ctx, None, None)
  }

  /** The application details selected by `opts`: those of the last `WithAppInfo`. */
  function LastApp(opts: seq<EventOption>): Option<E.AppInfo>
  {
    if opts == [] then None
    else
      var o := opts[|opts| - 1];
      if o.WithAppInfo? then Some(E.AppInfo(o.appName, o.appVersion)) else LastApp(opts[..|opts| - 1])
  }

  /** The OS details selected by `opts`: those of the last `WithOSInfo`. */
  function LastOS(opts: seq<EventOption>): Option<E.OSInfo>
  {
    if opts == [] then None
    else
      var o := opts[|opts| - 1];
      if o.WithOSInfo? then Some(E.OSInfo(o.osName, o.osVersion)) else LastOS(opts[..|opts| - 1])
  }

  /** `NewTrackEvent`: a track event with the given name, then every option applied in
      order, so the last option of each kind decides that detail. */
  method NewTrackEvent(userID: string, name: string, ctx: E.Context, opts: seq<EventOption>) returns (e: Event)
    ensures e.eventType == E.EventTypeTrack && e.userID == userID && e.name == name && e.context == ctx
    ensures e.app == LastApp(opts) && e.os == LastOS(opts)
  {
    e := Event(E.EventTypeTrack, userID, name, ctx, None, None);
    for i := 0 to |opts|
      invariant e.eventType == E.EventTypeTrack && e.userID == userID && e.name == name && e.context == ctx
      invariant e.app == LastApp(opts[..i]) && e.os == LastOS(opts[..i])
    {
      assert opts[..i + 1][..i] == opts[..i];
      match opts[i]
      case WithAppInfo(appName, appVersion) =>
        e := e.(app := Some(E.AppInfo(appName, appVersion)));
      case WithOSInfo(osName, osVersion) =>
        e := e.(os := Some(E.OSInfo(osName, osVersion)));
    }
    assert opts[..|opts|] == opts;
  }

  /** `StartSession`: one batch of exactly two events, an identify event and a "start"
      track event carrying the variant and version as application details and the
      operating system and architecture as OS details, both in the tracker's context.
      The result is the transport's. */
  method StartSession(t: Tracker, userID: string, version: string, variant: string, goos: string, goarch: string,
                      transport: Outcome<Error>)
    returns (r: Outcome<Error>, batch: seq<Event>)
    ensures batch == [NewIdentifyEvent(userID, t.context),
                      Event(E.EventTypeTrack, userID, EventStart, t.context,
                            Some(E.AppInfo(variant, version)), Some(E.OSInfo(goos, goarch)))]
    ensures r == transport
  {
    var identify := NewIdentifyEvent(userID, t.context);
    var start := NewTrackEvent(userID, EventStart, t.context, [WithAppInfo(variant, version), WithOSInfo(goos, goarch)]);
    assert [WithAppInfo(variant, version), WithOSInfo(goos, goarch)][..1] == [WithAppInfo(variant, version)];
    batch := [identify, start];
    r := transport;
  }

  /** `EndSession`: one batch holding a single "end" track event without details. */
  method EndSession(t: Tracker, userID: string, transport: Outcome<Error>) returns (r: Outcome<Error>, batch: seq<Event>)
    ensures batch == [Event(E.EventTypeTrack, userID, EventEnd, t.context, None, None)]
    ensures r == transport
  {
    var end := NewTrackEvent(userID, EventEnd, t.context, []);
    batch := [end];
    r := transport;
  }

  /** `Start`: a session start through a tracker with every default. */
  method Start(key: string, id: string, version: string, variant: string, goVersion: string, goos: string, goarch: string,
               transport: Outcome<Error>)
    returns (r: Outcome<Error>, batch: seq<Event>)
    ensures batch == [NewIdentifyEvent(id, DefaultContext(goVersion)),
                      Event(E.EventTypeTrack, id, EventStart, DefaultContext(goVersion),
                            Some(E.AppInfo(variant, version)), Some(E.OSInfo(goos, goarch)))]
    ensures r == transport
  {
    var t := NewTracker(key, goVersion, []);
    r, batch := StartSession(t, id, version, variant, goos, goarch, transport);
  }

  /** `End`: a session end through a tracker with every default. */
  method End(key: string, id: string, goVersion: string, transport: Outcome<Error>) returns (r: Outcome<Error>, batch: seq<Event>)
    ensures batch == [Event(E.EventTypeTrack, id, EventEnd, DefaultContext(goVersion), None, None)]
    ensures r == transport
  {
    var t := NewTracker(key, goVersion, []);
    r, batch := EndSession(t, id, transport);
  }
}

=== FILE: wrappers.dfy ===
/** Failure-carrying values used for Go's `(value, error)` and `error` returns. */
module Wrappers {

  /** A Go pointer that may be nil, or an optional value. */
  datatype Option<+T> = None | Some(value: T)

  /** A Go `(value, error)` pair: exactly one side is meaningful. */
  datatype Result<+R, +E> = Success(value: R) | Failure(error: E)

  /** A Go `error` return: nil (Pass) or an error value (Fail). */
  datatype Outcome<+E> = Pass | Fail(error: E)
}
